=== FILE: README.md ===
# Blood-donation coordination front end: the decision rules

This Dafny project models the decision rules inside the browser code of a blood-donation
coordination site. The site covers signup and login, a donor directory with contact-access
requests, a donation cooldown, and a feed of blood requests that donors respond to. All data
lives in a hosted document store. The model drops the DOM and SDK calls and keeps the pure
logic: immutable datatypes, integer-millisecond time, and functions over sequences and a
`map<string, Profile>` store.

Modules:

- `Wrappers`: `Option` and `Result`.
- `Values`: JavaScript's view of a stored field. `Field<T> = Absent | Null | Val(T)` keeps "key
  missing" apart from "key present but falsy". Also holds truthiness, `x || default` and
  `tsMillis`.
- `Text`: `trim`, ASCII `toLowerCase`, `includes`, and `replace(/c/g, …)`.
- `Escape`: the two `escapeHtml` helpers. One has three replacements, the other five.
- `Profiles`: the shared data model (`Profile`, `AccessRequest`, `Status`, `DonorDoc`, `Page`).
  Also `Assign`, which models `Object.assign` and object spread, and the store's `update`.
- `AccessRequests`: the donor's side of the workflow, from dashboard.js. Covers union-append,
  resolving a requester, the pending inbox, and `handleRequest`.
- `Cooldown`: days since the last donation, the next eligible date, whether the cooldown is
  active, and recording a donation.
- `Directory`: js/find-donors.js. Covers loading with defaults, the filter, the card and
  contact decision, and `requestAccess`.
- `BloodRequests`: js/blood-requests.js. Covers the viewer's action, the response panel, the
  status label, new requests and responses, and the notification banner.
- `Accounts`, `SignupPage`, `AuthPage`, `AuthModule`, `RouteGuards`: the three signup/login
  pages, `upgradeToDonor` and the donor-dashboard guard.

Some inputs become parameters: time (`now`, click time, server time), the signed-in uid, what
the identity provider answers, and what the store does with each call: whether a write is
accepted (`storeUp`), whether a read succeeds (`readOk`, or the read's error message), and which
call of a donor upgrade throws (`StoreFault`). Redirects are returned as a `Page` value.

Behaviour of the code worth stating explicitly:

- Resolving an entry again simply overwrites its status. There is no "already resolved"
  failure (`AccessRequests.ResolveTwice`).
- Recording a donation has no cooldown check. Only the disabled button stands in the way.
- The donor-dashboard guard fails open. When its profile read fails, nothing catches the error, so a signed-in non-donor stays on the donor dashboard (`RouteGuards.FailedReadKeepsAnyone`).
- The cooldown is active for every instant up to its end, including instants before the last
  donation.
- There is no self-request, self-response or duplicate-response check in the store writes.
  The only duplicate guard is the "Responded" badge (`BloodRequests.SecondResponseKept`).
- A new blood request's age is not validated.
- A profile written by the login page (auth.js) has no phone key. Upgrading it through js/auth.js, with no donors document yet, writes `phone: undefined`, which the store refuses. The route guard then keeps sending that user to the plain dashboard (`RouteGuards.AccountProfileCannotUpgrade`).
- Signing in without a profile document shows "Profile not found", but the session listener on the same page sends that user to the user dashboard (`AuthPage.SignInWithoutProfile`).

## Model

| member | source | states |
|---|---|---|
| Values.TsMillis | dashboard.js:292-298 | a falsy value (missing, null, 0) or an unknown shape gives none; a store timestamp gives its milliseconds, a `{seconds}` object gives seconds·1000, a number is returned unchanged |
| Escape.EscapeShort | js/blood-requests.js:280-283 | absent or empty input gives ""; the output has no raw `<` or `>`, every `&` in it begins `&amp;`, `&lt;` or `&gt;`, and entity decoding gives back the input |
| Escape.EscapeLong | js/find-donors.js:228-236 | as the short helper, and the output also holds no raw `"` or `'` (`&quot;`, `&#039;` allowed as entities) and decodes back to the input |
| Escape.ShortChainIsEncode | dashboard.js:287-290 | the three chained global replacements equal replacing each character by its entity |
| Escape.LongChainIsEncode | js/find-donors.js:230-235 | the five chained global replacements equal replacing each character by its entity |
| Escape.EncodeSafe | dashboard.js:289 | the per-character encoding never leaves a raw angle bracket (or quote, in the long form) and every `&` it emits begins an entity |
| Escape.UnescapeEncode | js/blood-requests.js:282 | decoding the entities of an encoded string gives back the original string |
| Profiles.Assign | dashboard.js:337 | keys present in the right-hand document win, keys missing from it keep the left-hand value; `{}` on either side is an identity |
| Profiles.Update | dashboard.js:331-334 | a partial update fails on a missing document; otherwise it merges the patch into that document only and keeps every other document |
| AccessRequests.UnionAppend | js/find-donors.js:203-205 | `arrayUnion` keeps the old list as a prefix, adds at most one element, contains the element afterwards, adds nothing when an equal element is present, and keeps a duplicate-free list duplicate-free |
| AccessRequests.Resolve | dashboard.js:256-261 | every entry of the requester takes status `action` whatever it was before; every other entry is unchanged; length, order, ids and names are preserved |
| AccessRequests.ResolveTwice | dashboard.js:249-272 | resolving the same requester twice equals resolving once with the second action, so a resolved entry can be overwritten |
| AccessRequests.PendingOf | dashboard.js:224 | the filtered list holds exactly the pending entries of the input |
| AccessRequests.PendingOfConcat | dashboard.js:224 | the pending filter distributes over concatenation, so the inbox keeps arrival order |
| AccessRequests.Inbox | dashboard.js:223-224 | a missing or null list gives an empty inbox; otherwise the inbox is the pending entries of the stored list |
| AccessRequests.SectionShown | dashboard.js:226-231 | the requests section is shown iff some stored entry is pending |
| AccessRequests.ResolveClearsInbox | dashboard.js:256-278 | after approving or ignoring a requester, the inbox is exactly the previous inbox minus that requester's entries |
| AccessRequests.HandleRequest | dashboard.js:249-285 | nothing changes without a user, a cached profile, a stored document or a reachable store; on success the store and the local copy both hold the resolved local list and nothing else changes |
| Cooldown.DaysSince | dashboard.js:308 | the result is the floor of the elapsed days, never negative, and 0 when `now` is not after the last donation |
| Cooldown.Active | dashboard.js:315 | the cooldown is active iff the end is truthy and `now <= end`; a missing end is never active |
| Cooldown.DonationStatus | dashboard.js:300-320 | no truthy last donation gives "no record"; otherwise days since and next eligible date (stored end when truthy, else last + 90·86 400 000); the button is disabled exactly when the cooldown is active |
| Cooldown.RecordDonation | dashboard.js:322-347 | without a user, a stored document or a reachable store nothing changes; otherwise the stored document gets last donation = server time and cooldown end = click time + 90 days with every other key and every other document kept, and the cached profile becomes the re-read document merged over the old cache |
| Cooldown.RecordedCooldown | dashboard.js:329-339 | after recording, the cached profile is active exactly up to click time + 90 days, and the dashboard shows days since the server time and that end as the next eligible date |
| Directory.WithDefaults | js/find-donors.js:58-64 | "Anonymous Donor", "?" and `city` or "Location not set" survive only where the key is missing; a present "" or null stays; every other field is the stored one |
| Directory.LoadDonors | js/find-donors.js:51-66 | exactly the documents whose `isActive` is not `false` are loaded, each merged over its defaults |
| Directory.LoadDonorsConcat | js/find-donors.js:52-66 | loading distributes over concatenation of the snapshot, so directory order is snapshot order |
| Directory.FilterDonors | js/find-donors.js:76-86 | the filter fails iff some donor's name or location is not a string; otherwise it keeps exactly the donors whose lower-cased name and location contain the trimmed, lower-cased terms and whose group is the selection or the selection is "All" |
| Directory.SelectConcat | js/find-donors.js:81-86 | the filter distributes over concatenation, so the result keeps input order |
| Directory.EmptyQueryKeepsAll | js/find-donors.js:77-84 | blank terms with "All" keep every donor |
| Directory.FindFirst | js/find-donors.js:128 | none iff no entry has the viewer's id; otherwise the entry at the first index with that id |
| Text.Trim | auth.js:58-61 | the trimmed text is empty iff the input is all white space, has no white space at either end, and occurs in the input with only white space before and after it |
| Directory.LockedContactAsWritten | js/find-donors.js:127-151 | without a viewer, "Request Contact"; otherwise the viewer's first entry decides: the phone is shown iff the viewer's first entry is approved, "Request Pending" iff it is pending, and "Request Contact" otherwise, including when the viewer has no entry |
| Directory.ReRequestAfterIgnoreAsWritten | js/find-donors.js:207-212 | after an ignored request and a new request, the list is [ignored, pending]; the as-written card `CardFor` still offers "Request Contact", while the corrected card shows "Request Pending" |
| Directory.FindLast | js/find-donors.js:128 | none iff no entry has the viewer's id; otherwise the entry at the last index with that id |
| Directory.LockedContact | js/find-donors.js:127-151 | the corrected decision: the phone is shown iff the viewer's latest entry is approved, "Request Pending" iff it is pending, and "Request Contact" otherwise |
| Directory.RequestShowsPending | js/find-donors.js:207-212 | after a successful request, a loaded, locked, available donor's corrected card (`CardForLatest`) shows "Request Pending" to the requester |
| Directory.CardFor | js/find-donors.js:93-176 | a cooling donor is listed with days since donation (0 without a last donation) and no contact; an available donor whose `profileLocked` is not exactly `true` shows the phone whatever the requests; a locked one shows what the viewer's FIRST access request decides, as written |
| Directory.CardForLatest | js/find-donors.js:127-151 | the corrected card: equal to `CardFor` except for a locked, available donor, where the viewer's LATEST request decides; it differs from `CardFor` only when the viewer's first and latest entries differ |
| Directory.ResolveThenDecide | js/find-donors.js:128-151 | after the donor resolves requester r with action a, both decisions for r show what a means, or "Request Contact" when r never asked |
| Directory.ApproveThenPhoneShown | js/find-donors.js:118-138 | a listed, locked, available donor; the requester asks, the donor approves from the stored profile, loading the stored document again lists exactly that donor with defaults applied, and the card drawn from the loaded list shows the requester the phone with "Access Approved", on the as-written and on the corrected card |
| Directory.FindIndex | js/find-donors.js:208 | none iff no loaded donor has the id; otherwise the first index holding it |
| Directory.RequesterName | js/find-donors.js:14-27 | the requester name is never empty: the stored name, else the account display name, else "Anonymous"; without a profile document it is "Anonymous" |
| Directory.RequestAccess | js/find-donors.js:185-225 | without a viewer, a stored donor document or a reachable store nothing changes; otherwise the stored list is the union with `{uid, name, pending}`, and the loaded copy of that donor (if loaded) gets the entry appended while every other donor is unchanged |
| BloodRequests.ActionFor | js/blood-requests.js:100-115 | the creator gets "My Request"; a donor who is not the creator gets "Responded" iff some response has their id, else "Respond"; anyone else gets nothing |
| BloodRequests.PanelFor | js/blood-requests.js:122-126 | the response list is shown only to the creator and only when there are responses; the count is the list length and the header is plural iff it exceeds 1 |
| BloodRequests.LabelFor | js/blood-requests.js:157-159 | "N Responses" iff the list is present and non-empty, else "Waiting for donors" |
| BloodRequests.NewRequest | js/blood-requests.js:176-186 | the new request is by the viewer with the viewer's role, has trimmed name/hospital/description, the age as given, the server time and no responses; its creator sees "My Request" and "Waiting for donors" |
| BloodRequests.Post | js/blood-requests.js:188-197 | a successful post adds exactly the new document under its fresh id and alerts "Request posted successfully!"; a refused write leaves the board unchanged and alerts "Failed to post request." |
| BloodRequests.PostThenRespond | js/blood-requests.js:188-193 | a freshly posted request waits for donors; after another donor's response it is labelled "1 Responses", its creator sees a panel of one, and the donor sees "Responded" |
| BloodRequests.NewResponse | js/blood-requests.js:223-230 | the response carries the donor's id, name and group, the colour or "#CE1126", the trimmed message and the time |
| BloodRequests.SubmitResponse | js/blood-requests.js:211-235 | an empty request id writes nothing; a missing request, an unreachable store, or a response whose donor name or blood group is undefined (the store refuses undefined values) fails; otherwise only that request's responses become the union with the new response |
| BloodRequests.BaseProfileCannotRespond | js/blood-requests.js:223-235 | a donor whose profile holds only name, phone, email and role (the module signup page's document) can never have a response saved |
| BloodRequests.SecondResponseKept | js/blood-requests.js:223-235 | a second response by the same donor with another message is stored beside the first; only the "Responded" badge prevents it |
| BloodRequests.AnsweredRequests | js/blood-requests.js:257-259 | exactly the viewer's requests with a non-empty response list |
| BloodRequests.AnsweredConcat | js/blood-requests.js:257-259 | the filter keeps feed order: filtering two parts of the feed and joining them equals filtering the whole feed |
| BloodRequests.ShowBanner | js/blood-requests.js:257-277 | the banner shows iff some loaded request of the viewer has responses, i.e. iff the viewer sees some response panel |
| Accounts.ErrorText | js/signup.js:75 | the error text is the error's message when truthy, else the fallback |
| Accounts.NewDonorDoc | js/signup.js:93-100 | a new donors document is locked, available, has a null last donation and the given name, phone and group |
| SignupPage.ChooseRole | js/signup.js:18-32 | the donor button selects "donor" and makes the blood group required; the user button selects "user" and makes it optional |
| SignupPage.UsersDoc | js/signup.js:59-68 | the profile has name, phone, role, `profileLocked: false` and the creation time, a blood group iff the role is donor, and no other key |
| SignupPage.Signup | js/signup.js:34-78 | a donor with a blank trimmed blood group is rejected with "Blood group is required." whatever the provider answers; a provider error is shown; otherwise the profile is written and the page goes to dashboard.html |
| SignupPage.UpgradeToDonor | js/signup.js:80-105 | throws "Not authenticated" or "Blood group required" with the store untouched; a failing read, or a failing creation of the missing donors document, throws its message with nothing written; otherwise creates the donors document (name from account, profile or "", phone from profile or "") only if absent; returns true with role "donor" iff the profile document exists and the role update succeeds, and a failed role update leaves the donors document behind |
| AuthPage.DashboardFor | auth.js:120-124 | a donor goes to the donor dashboard, every other role to the user dashboard |
| AuthPage.SessionRedirect | auth.js:22-36 | no user, or a failed profile read, gives no redirect; otherwise the donor dashboard iff the stored profile's role is "donor" (missing profile or role counts as "user"), else the user dashboard |
| AuthPage.SetRole | auth.js:38-51 | the selected role is stored and the blood group is required iff it is "donor" |
| AuthPage.AccountDoc | auth.js:78-85 | the profile has name, email, role, `profileLocked: false` and the creation time, a blood group iff donor, and no other key |
| AuthPage.CreateAccount | auth.js:56-100 | a donor with a blank trimmed blood group is rejected before account creation; a provider error is shown; otherwise the profile is written and a donor goes to the donor dashboard, anyone else to the user dashboard |
| AuthPage.SignIn | auth.js:102-129 | a provider error is shown; a failed profile read shows its message (or "Sign-in failed" when empty); a missing profile gives "Profile not found. Please contact support." and no redirect; otherwise the stored role picks the dashboard |
| AuthPage.SignInAgreesWithSession | auth.js:27-32 | signing in and resuming a session send a user with a profile to the same dashboard |
| AuthPage.SignInWithoutProfile | auth.js:112-115 | a signed-in user without a profile document gets "Profile not found" from sign-in, while the session listener (auth.js:22-32) sends the same user to the user dashboard |
| AuthModule.BaseUserDoc | js/auth.js:57-58 | the users document is exactly name, phone, email and role, with no `profileLocked` and no blood group |
| AuthModule.Signup | js/auth.js:35-77 | a donor with a blank trimmed blood group is rejected before account creation; otherwise the users document is written, a donor also gets a locked, available donors document with a null last donation, and the destination is the donor dashboard for a donor, dashboard.html otherwise |
| AuthModule.UpgradeToDonor | js/auth.js:79-104 | throws without a user or with a falsy blood group, store untouched; a failing read throws its message with nothing written; when the donors document is absent and the name or phone read from the profile is undefined, or its creation fails, the write is refused and nothing changes; otherwise the donors document (created only if absent) takes the display name, else the stored name when the profile exists, else "", and the stored phone or ""; the role becomes "donor" iff the profile exists and the role update succeeds |
| RouteGuards.EnforceDonorDashboard | js/route-guards.js:10-22 | no user goes to signup.html; a failed profile read is not caught and gives no redirect; a missing profile counts as "user"; any role but "donor" goes to dashboard.html; a donor gets no redirect |
| RouteGuards.GuardAgreesWithSession | js/route-guards.js:16-20 | the guard lets a signed-in user stay iff resuming the session on the login page leads to the donor dashboard |
| RouteGuards.DonorSignupPassesGuard | js/auth.js:60-73 | a donor who signs up lands on the donor dashboard and the guard lets them stay |
| RouteGuards.UpgradePassesGuard | js/signup.js:103-104 | after a successful upgrade with the signup page's helper, the guard lets the user stay on the donor dashboard |
| RouteGuards.ModuleUpgradePassesGuard | js/auth.js:103 | with a profile whose phone key exists and a name available (display name, stored name, or an existing donors document), the shared module's upgrade succeeds and the guard lets the user stay on the donor dashboard |
| RouteGuards.AccountProfileCannotUpgrade | js/auth.js:86-100 | a profile written by the login page (no phone key) and no donors document: the upgrade is refused with the store unchanged, and the guard still sends the user to the plain dashboard |
| RouteGuards.FailedReadKeepsAnyone | js/route-guards.js:16 | the guard fails open: with a failed profile read any signed-in user stays on the donor dashboard, while the login page's listener gives no redirect and the guard with a successful read sends a non-donor away |
| RouteGuards.FailedRoleUpdateLeavesDonorDoc | js/signup.js:91-103 | when the role update fails after the donors document was created, the upgrade throws that message, the donors document stays, the profile is unchanged, and the guard sends a non-donor to dashboard.html |

## Left out

- Store and SDK setup, identity-provider calls and auth-state listeners. Their outcomes are inputs: an `AuthResult`, an optional uid, a `storeUp` or `readOk` flag, a read's error message, or a `StoreFault`.
- Setting the account's display name after signup: an identity-provider call with no effect on the documents.
- Store queries: the `where role == "donor"` query, `orderBy createdAt desc`, `limit(50)` and the count cards in dashboard.js:72-110. These are store-engine behaviour. The directory and the feed take the query result as a sequence.
- Concurrency. A concurrent `arrayUnion` and `handleRequest` can lose an update, because the resolved list is computed from the donor's cached copy. The model is sequential. `AccessRequests.HandleRequest` states that the written list is derived from the cached copy.
- DOM, markup, modals, alerts and console output. Cards, buttons and labels are decision datatypes instead.
- The dashboard's profile display, the edit-profile form (dashboard.js:128-214) and logout: view glue with no decision rule in it.
- The board's profile link (js/blood-requests.js:45-57) uses the same donor/user split as `AuthPage.DashboardFor`, so it is not modelled again.
- `Date.now`, `new Date`, server timestamps and locale date formatting. Times are integer millisecond parameters.
- `parseInt`. The patient's age is taken as an integer.
- Write failures during account creation in the three signup flows. A failing profile or donors `set` there is not modelled; the donor upgrades do model their store failures.
- Cooldown.RecordDonation: a failed re-read after a successful update is not separated from a failed update. One `storeUp` flag covers both.
- Directory.FilterDonors: `Text.Lower` lower-cases only A–Z. JavaScript's `toLowerCase` applies full Unicode case mapping, so non-ASCII names match case-sensitively in the model.
- Directory.LoadDonors: a stored `id` key would override the document id through the spread. `Profile` has no `id` key, so this is not modelled.
- BloodRequests.Post: a profile without a `role` key would make the creator role undefined and the store would refuse the request. This cause is not separated from other refusals; every signup page writes a role, and the `storeUp` flag covers any refused write.
- AuthModule.UpgradeToDonor: the store's rejection of an undefined value is modelled as one fixed message. The SDK's exact error text is not part of this model.
- `Status` has only pending, approved and ignored. Other stored status strings are not represented.
- Values.TsMillis: store timestamps carry whole milliseconds; nanosecond fractions and non-integer `seconds` are not represented.

## Findings

| source | as written | input that shows it | evidently intended | confidence | as-written member | corrected member |
|---|---|---|---|---|---|---|
| js/find-donors.js:128 | the viewer's FIRST access-request entry decides the locked card | donor list `[{R, n, ignored}]`; R presses "Request Contact" again, so the list becomes `[{R, n, ignored}, {R, n, pending}]` | after a successful request the card shows "Request Pending" (the re-render at line 212 is for that); the latest entry should decide | medium, not executed | Directory.ReRequestAfterIgnoreAsWritten (on Directory.CardFor and Directory.LockedContactAsWritten) | Directory.LockedContact, with Directory.CardForLatest and Directory.RequestShowsPending |

=== FILE: access_requests.dfy ===
/**
 * The donor's side of the contact-access workflow (dashboard.js): the
 * store's union-append primitive, resolving every entry of one requester,
 * and the inbox of pending entries.
 */
module AccessRequests {
  import opened Wrappers
  import opened Values
  import opened Profiles

  /** No element occurs twice. */
  predicate Distinct<T(==)>(xs: seq<T>) {
    forall i, j :: 0 <= i < j < |xs| ==> xs[i] != xs[j]
  }

  /**
   * The store's `arrayUnion(x)` on a list: the element is appended unless a
   * structurally equal element is already present.
   */
  function UnionAppend<T(==)>(xs: seq<T>, x: T): (r: seq<T>)
    ensures x in r
    ensures |xs| <= |r| <= |xs| + 1 && r[..|xs|] == xs
    ensures x in xs ==> r == xs
    ensures Distinct(xs) ==> Distinct(r)
  {
    if x in xs then xs else xs + [x]
  }

  /** One entry after the donor's decision on `requesterId`. */
  function ResolveEntry(e: AccessRequest, requesterId: string, action: Status): AccessRequest {
    if e.requesterId == requesterId then e.(status := action) else e
  }

  /**
   * The list `handleRequest` writes: every entry of `requesterId` takes the
   * status `action` whatever it was before; all other entries, the length
   * and the order are kept.
   */
  function Resolve(reqs: seq<AccessRequest>, requesterId: string, action: Status): (r: seq<AccessRequest>)
    ensures |r| == |reqs|
    ensures forall i :: 0 <= i < |r| ==>
      r[i].requesterId == reqs[i].requesterId && r[i].requesterName == reqs[i].requesterName
    ensures forall i :: 0 <= i < |r| && reqs[i].requesterId == requesterId ==> r[i].status == action
    ensures forall i :: 0 <= i < |r| && reqs[i].requesterId != requesterId ==> r[i] == reqs[i]
    decreases |reqs|
  {
    if reqs == [] then []
    else [ResolveEntry(reqs[0], requesterId, action)] + Resolve(reqs[1..], requesterId, action)
  }

  /** A second decision on the same requester overrides the first: the source never refuses a re-resolve. */
  lemma ResolveTwice(reqs: seq<AccessRequest>, requesterId: string, a: Status, b: Status)
    ensures Resolve(Resolve(reqs, requesterId, a), requesterId, b) == Resolve(reqs, requesterId, b)
  {
    var x := Resolve(Resolve(reqs, requesterId, a), requesterId, b);
    var y := Resolve(reqs, requesterId, b);
    assert forall i :: 0 <= i < |x| ==> x[i] == y[i];
  }

  /** The pending entries of a list, in their original order. */
  function PendingOf(reqs: seq<AccessRequest>): (r: seq<AccessRequest>)
    ensures forall x :: x in r <==> x in reqs && x.status == Pending
    ensures |r| <= |reqs|
    decreases |reqs|
  {
    if reqs == [] then []
    else (if reqs[0].status == Pending then [reqs[0]] else []) + PendingOf(reqs[1..])
  }

  /** Filtering a concatenation filters each part: the inbox keeps arrival order. */
  lemma {:induction false} PendingOfConcat(a: seq<AccessRequest>, b: seq<AccessRequest>)
    ensures PendingOf(a + b) == PendingOf(a) + PendingOf(b)
    decreases |a|
  {
    if a == [] {
      assert a + b == b;
    } else {
      assert (a + b)[1..] == a[1..] + b;
      PendingOfConcat(a[1..], b);
    }
  }

  /**
   * The donor's inbox (`loadAccessRequests`): the pending entries of the
   * profile's list, a missing or `null` list counting as empty.
   */
  function Inbox(profile: Profile): (r: seq<AccessRequest>)
    ensures !profile.accessRequests.Val? ==> r == []
    ensures profile.accessRequests.Val? ==> r == PendingOf(profile.accessRequests.value)
    ensures forall x :: x in r <==> x in ListOf(profile.accessRequests) && x.status == Pending
  {
    PendingOf(ListOf(profile.accessRequests))
  }

  /** The access-request section is shown exactly when some entry is pending. */
  function SectionShown(profile: Profile): (shown: bool)
    ensures shown <==> exists x :: x in ListOf(profile.accessRequests) && x.status == Pending
  {
    var inbox := Inbox(profile);
    assert inbox != [] ==> inbox[0] in inbox;
    inbox != []
  }

  /**
   * After the donor approves or ignores `requesterId`, the inbox holds
   * exactly the previously pending entries of the other requesters.
   */
  lemma ResolveClearsInbox(reqs: seq<AccessRequest>, requesterId: string, action: Status)
    requires action != Pending
    ensures forall x :: x in PendingOf(Resolve(reqs, requesterId, action)) <==>
      x in PendingOf(reqs) && x.requesterId != requesterId
  {
    var r := Resolve(reqs, requesterId, action);
    forall x ensures x in r && x.status == Pending <==> x in reqs && x.status == Pending && x.requesterId != requesterId {
      if x in r && x.status == Pending {
        var i :| 0 <= i < |r| && r[i] == x;
        assert reqs[i].requesterId != requesterId;
      }
      if x in reqs && x.status == Pending && x.requesterId != requesterId {
        var i :| 0 <= i < |reqs| && reqs[i] == x;
        assert r[i] == x;
      }
    }
  }

  /** The donor's page state: the signed-in uid and the locally cached profile. */
  datatype DonorSession = DonorSession(uid: Option<string>, profile: Option<Profile>)

  /** What `handleRequest` leaves behind: the store, the page state, and whether the write was saved. */
  datatype Handled = Handled(users: Users, session: DonorSession, saved: bool)

  /**
   * `handleRequest(requesterId, action)`: resolves the LOCAL copy of the
   * list, writes the whole list to the donor's document, and replaces the
   * local copy only once that write has succeeded.  `storeUp` is whether
   * the store accepts the write.
   */
  function HandleRequest(users: Users, session: DonorSession, requesterId: string, action: Status,
                         storeUp: bool): (h: Handled)
    ensures h.saved <==> session.uid.Some? && session.profile.Some? && storeUp && session.uid.value in users
    ensures !h.saved ==> h.users == users && h.session == session
    ensures h.saved ==>
      && h.session.uid == session.uid
      && h.session.profile.Some?
      && h.users.Keys == users.Keys
      && h.users[session.uid.value] == users[session.uid.value].(accessRequests := h.session.profile.value.accessRequests)
      && h.session.profile.value.accessRequests ==
           Val(Resolve(ListOf(session.profile.value.accessRequests), requesterId, action))
      && h.session.profile.value == session.profile.value.(accessRequests := h.session.profile.value.accessRequests)
      && (forall k :: k in users && k != session.uid.value ==> h.users[k] == users[k])
  {
    if session.uid.None? || session.profile.None? then Handled(users, session, false)
    else
      var uid := session.uid.value;
      var local := session.profile.value;
      var updated := Resolve(ListOf(local.accessRequests), requesterId, action);
      var written := Update(users, uid, NoKeys.(accessRequests := Val(updated)));
      if !storeUp || written.None? then Handled(users, session, false)
      else Handled(written.value, DonorSession(session.uid, Some(local.(accessRequests := Val(updated)))), true)
  }
}

=== FILE: accounts.dfy ===
/**
 * Rules shared by the three signup pages: the role switch, the donor's
 * blood-group requirement, the identity provider's answer, and the two
 * collections a signup writes.
 */
module Accounts {
  import opened Wrappers
  import opened Values
  import opened Text
  import opened Profiles

  /** The role selected on a signup form and whether the blood-group input is required. */
  datatype RoleForm = RoleForm(selectedRole: string, bloodGroupRequired: bool)

  /** A donor signup whose blood group is blank after trimming. */
  predicate MissingBloodGroup(role: string, bloodGroupText: string) {
    role == "donor" && Trim(bloodGroupText) == ""
  }

  /** The message shown for a donor signup without blood group. */
  const BloodGroupRequired := "Blood group is required."

  /** The account the identity provider reports. */
  datatype AuthUser = AuthUser(uid: string, displayName: Field<string>)

  /** The identity provider's answer to a create or sign-in call. */
  datatype AuthResult = AuthOk(user: AuthUser) | AuthError(message: Field<string>)

  /** `err && err.message ? err.message : fallback`. */
  function ErrorText(message: Field<string>, fallback: string): (t: string)
    ensures t != "" || fallback == ""
    ensures Truthy(message) ==> t == message.value
    ensures !Truthy(message) ==> t == fallback
  {
    OrElse(message, fallback)
  }

  /** The raw inputs of a signup form that asks for name, phone, email, password and blood group. */
  datatype SignupForm = SignupForm(name: string, phone: string, email: string, password: string, bloodGroup: string)

  /** The store calls of a donor upgrade, in the order the helper makes them. */
  datatype UpgradeStep = ReadProfile | ReadDonor | CreateDonor | SetRole

  /** A store call that throws, and the message it throws. */
  datatype StoreFault = StoreFault(step: UpgradeStep, message: string)

  /** The fault, if any, hits the given call. */
  predicate FailsAt(fault: Option<StoreFault>, step: UpgradeStep) {
    fault.Some? && fault.value.step == step
  }

  /**
   * The upgrade throws before it writes anything: one of the two reads
   * fails, or the donor document has to be created and that write fails.
   */
  predicate ThrowsBeforeWrite(fault: Option<StoreFault>, donorExists: bool) {
    FailsAt(fault, ReadProfile) || FailsAt(fault, ReadDonor) || (!donorExists && FailsAt(fault, CreateDonor))
  }

  /** The two collections a signup can write. */
  datatype Db = Db(users: Users, donors: map<string, DonorDoc>)

  /** The `donors/{uid}` document written for a new donor: locked, available, never donated. */
  function NewDonorDoc(name: Field<string>, phone: Field<string>, bloodGroup: string): (d: DonorDoc)
    ensures d.isLocked && d.available && d.lastDonation == Null
    ensures d.name == name && d.phone == phone && d.bloodGroup == bloodGroup
  {
    DonorDoc(name, phone, bloodGroup, true, true, Null)
  }
}

=== FILE: auth_module.dfy ===
/** The module-style signup of js/auth.js: validation, the users and donors documents, routing, donor upgrade. */
module AuthModule {
  import opened Wrappers
  import opened Values
  import opened Text
  import opened Profiles
  import opened Accounts

  /** The `users/{uid}` document of this page: exactly name, phone, email and role. */
  function BaseUserDoc(name: string, phone: string, email: string, role: string): (p: Profile)
    ensures p.name == Val(name) && p.phone == Val(phone) && p.email == Val(email) && p.role == Val(role)
    ensures p.profileLocked.Absent? && p.bloodGroup.Absent?
    ensures p.(name := Absent, phone := Absent, email := Absent, role := Absent) == NoKeys
  {
    NoKeys.(name := Val(name), phone := Val(phone), email := Val(email), role := Val(role))
  }

  /** The result of submitting the form. */
  datatype SignupOutcome = Rejected(message: string) | Failed(message: string) | Created(db: Db, destination: Page)

  /**
   * Submitting the form: a donor without a trimmed blood group is rejected
   * before the account is created; otherwise the users document is
   * written, a donor also gets a locked, available donors document, and
   * the donor goes to the donor dashboard, anyone else to dashboard.html.
   */
  function Signup(form: SignupForm, role: string, auth: AuthResult, db: Db): (r: SignupOutcome)
    ensures MissingBloodGroup(role, form.bloodGroup) ==> r == Rejected(BloodGroupRequired)
    ensures r.Rejected? ==> MissingBloodGroup(role, form.bloodGroup)
    ensures auth.AuthError? && !r.Rejected? ==> r == Failed(ErrorText(auth.message, "Signup failed"))
    ensures r.Created? <==> auth.AuthOk? && !MissingBloodGroup(role, form.bloodGroup)
    ensures r.Created? ==>
      var uid := auth.user.uid;
      && r.db.users == db.users[uid := BaseUserDoc(Trim(form.name), Trim(form.phone), Trim(form.email), role)]
      && (role == "donor" ==> r.db.donors == db.donors[uid :=
            NewDonorDoc(Val(Trim(form.name)), Val(Trim(form.phone)), Trim(form.bloodGroup))])
      && (role != "donor" ==> r.db.donors == db.donors)
      && (r.destination == DonorDashboard <==> role == "donor")
      && (r.destination == DashboardPage <==> role != "donor")
  {
    if MissingBloodGroup(role, form.bloodGroup) then Rejected(BloodGroupRequired)
    else match auth
      case AuthError(m) => Failed(ErrorText(m, "Signup failed"))
      case AuthOk(u) =>
        var name, phone, email := Trim(form.name), Trim(form.phone), Trim(form.email);
        var users := db.users[u.uid := BaseUserDoc(name, phone, email, role)];
        if role == "donor" then
          Created(Db(users, db.donors[u.uid := NewDonorDoc(Val(name), Val(phone), Trim(form.bloodGroup))]), DonorDashboard)
        else
          Created(Db(users, db.donors), DashboardPage)
  }

  /** The result of `upgradeToDonor`: the collections afterwards and whether it threw. */
  datatype Upgraded = Upgraded(db: Db, result: Result<()>)

  /** The store's refusal of a document holding an undefined value. */
  const UndefinedValue := "Unsupported field value: undefined"

  /**
   * `upgradeToDonor(bloodGroup)` of this module: throws without a user or
   * with a falsy blood group before any read; a failing read throws with
   * nothing written; the donor document takes the account's display name,
   * else the stored name (possibly missing) when the profile exists, else
   * "", and the stored phone (possibly missing) when the profile exists,
   * else ""; it is created only if absent, and the store refuses it,
   * leaving everything as it was, when the name or phone is undefined or
   * the write fails; then the role is set to donor, which throws, leaving
   * the donor document in place, when that write fails or there is no
   * profile document.
   */
  function UpgradeToDonor(user: Option<AuthUser>, bloodGroup: Field<string>, db: Db,
                          fault: Option<StoreFault>): (u: Upgraded)
    ensures user.None? ==> u == Upgraded(db, Failure("Not authenticated"))
    ensures user.Some? && !Truthy(bloodGroup) ==> u == Upgraded(db, Failure("Blood group required"))
    ensures user.Some? && Truthy(bloodGroup) && (FailsAt(fault, ReadProfile) || FailsAt(fault, ReadDonor)) ==>
      u == Upgraded(db, Failure(fault.value.message))
    ensures user.Some? && Truthy(bloodGroup) && !(FailsAt(fault, ReadProfile) || FailsAt(fault, ReadDonor)) ==>
      var uid := user.value.uid;
      var name := if Truthy(user.value.displayName) then user.value.displayName
                  else if uid in db.users then db.users[uid].name else Val("");
      var phone := if uid in db.users then db.users[uid].phone else Val("");
      var refused := uid !in db.donors && (name.Absent? || phone.Absent?);
      && (refused ==> u == Upgraded(db, Failure(UndefinedValue)))
      && (!refused && uid !in db.donors && FailsAt(fault, CreateDonor) ==> u == Upgraded(db, Failure(fault.value.message)))
      && (!refused && !ThrowsBeforeWrite(fault, uid in db.donors) ==>
            && u.db.donors.Keys == db.donors.Keys + {uid}
            && (uid in db.donors ==> u.db.donors == db.donors)
            && (uid !in db.donors ==>
                  var d := u.db.donors[uid];
                  && u.db.donors == db.donors[uid := d]
                  && d.isLocked && d.available && d.lastDonation == Null && d.bloodGroup == bloodGroup.value
                  && d.name == name && d.phone == phone)
            && (u.result.Success? <==> uid in db.users && !FailsAt(fault, SetRole))
            && (FailsAt(fault, SetRole) ==> u.result == Failure(fault.value.message))
            && (u.result.Success? ==> u.db.users == db.users[uid := db.users[uid].(role := Val("donor"))])
            && (u.result.Failure? ==> u.db.users == db.users))
  {
    if user.None? then Upgraded(db, Failure("Not authenticated"))
    else if !Truthy(bloodGroup) then Upgraded(db, Failure("Blood group required"))
    else if FailsAt(fault, ReadProfile) || FailsAt(fault, ReadDonor) then Upgraded(db, Failure(fault.value.message))
    else
      var uid := user.value.uid;
      var hasProfile := uid in db.users;
      var name := if Truthy(user.value.displayName) then user.value.displayName
                  else if hasProfile then db.users[uid].name else Val("");
      var phone := if hasProfile then db.users[uid].phone else Val("");
      if uid !in db.donors && (name.Absent? || phone.Absent?) then Upgraded(db, Failure(UndefinedValue))
      else if uid !in db.donors && FailsAt(fault, CreateDonor) then Upgraded(db, Failure(fault.value.message))
      else
        var donors := if uid in db.donors then db.donors
                      else db.donors[uid := NewDonorDoc(name, phone, bloodGroup.value)];
        var written := Update(db.users, uid, NoKeys.(role := Val("donor")));
        if FailsAt(fault, SetRole) then Upgraded(Db(db.users, donors), Failure(fault.value.message))
        else if written.None? then Upgraded(Db(db.users, donors), Failure("No document to update"))
        else Upgraded(Db(written.value, donors), Success(()))
  }

}

=== FILE: auth_page.dfy ===
/** The combined sign-up/sign-in page of auth.js: session routing, role switch, account creation, sign-in. */
module AuthPage {
  import opened Wrappers
  import opened Values
  import opened Text
  import opened Profiles
  import opened Accounts

  /** The dashboard for a role: donors to the donor dashboard, everyone else to the user dashboard. */
  function DashboardFor(role: Field<string>): (p: Page)
    ensures p == DonorDashboard <==> IsDonor(role)
    ensures p == DonorDashboard || p == UserDashboard
  {
    if IsDonor(role) then DonorDashboard else UserDashboard
  }

  /**
   * An existing session: nothing without a user, and nothing (the error is
   * only logged) when reading the profile fails; otherwise the stored role,
   * defaulting to "user" when the profile or its role is missing or empty,
   * picks the dashboard.
   */
  function SessionRedirect(user: Option<string>, readOk: bool, users: Users): (p: Option<Page>)
    ensures p.None? <==> user.None? || !readOk
    ensures p == Some(DonorDashboard) <==> user.Some? && readOk && user.value in users && IsDonor(users[user.value].role)
    ensures p.Some? ==> p.value == DonorDashboard || p.value == UserDashboard
  {
    if user.None? || !readOk then None
    else
      var uid := user.value;
      var role := if uid in users && Truthy(users[uid].role) then users[uid].role.value else "user";
      Some(if role == "donor" then DonorDashboard else UserDashboard)
  }

  /** `setRole(role)`: the blood group is required exactly for "donor". */
  function SetRole(role: string): (f: RoleForm)
    ensures f.selectedRole == role
    ensures f.bloodGroupRequired <==> role == "donor"
  {
    RoleForm(role, role == "donor")
  }

  /** The raw inputs of the account form. */
  datatype AccountForm = AccountForm(name: string, email: string, password: string, bloodGroup: string)

  /**
   * The `users/{uid}` document of this page: name, email, role, an
   * unlocked profile and the creation time, plus the blood group exactly
   * for a donor; no other key.
   */
  function AccountDoc(name: string, email: string, role: string, bloodGroup: string, serverMs: int): (p: Profile)
    ensures p.name == Val(name) && p.email == Val(email) && p.role == Val(role)
    ensures p.profileLocked == Val(false) && p.createdAt == Val(Timestamp(serverMs))
    ensures p.bloodGroup.Val? <==> role == "donor"
    ensures p.bloodGroup.Val? ==> p.bloodGroup.value == bloodGroup
    ensures p.(name := Absent, email := Absent, role := Absent, profileLocked := Absent,
               createdAt := Absent, bloodGroup := Absent) == NoKeys
  {
    var base := NoKeys.(name := Val(name), email := Val(email), role := Val(role),
                        profileLocked := Val(false), createdAt := Val(Timestamp(serverMs)));
    if role == "donor" then base.(bloodGroup := Val(bloodGroup)) else base
  }

  /** The result of `createAccount`. */
  datatype CreateOutcome = Rejected(message: string) | Failed(message: string) | Created(users: Users, destination: Page)

  /**
   * `createAccount()`: a donor without a trimmed blood group is rejected
   * before the account is created; a provider error is shown; otherwise
   * the document is written and the donor goes to the donor dashboard,
   * anyone else to the user dashboard.
   */
  function CreateAccount(form: AccountForm, role: string, auth: AuthResult, serverMs: int, users: Users): (r: CreateOutcome)
    ensures MissingBloodGroup(role, form.bloodGroup) ==> r == Rejected(BloodGroupRequired)
    ensures r.Rejected? ==> MissingBloodGroup(role, form.bloodGroup)
    ensures auth.AuthError? && !r.Rejected? ==> r == Failed(ErrorText(auth.message, "Signup failed"))
    ensures r.Created? <==> auth.AuthOk? && !MissingBloodGroup(role, form.bloodGroup)
    ensures r.Created? ==>
      && (r.destination == DonorDashboard <==> role == "donor")
      && r.destination in {DonorDashboard, UserDashboard}
      && r.users == users[auth.user.uid := AccountDoc(Trim(form.name), Trim(form.email), role,
                                                      Trim(form.bloodGroup), serverMs)]
  {
    if MissingBloodGroup(role, form.bloodGroup) then Rejected(BloodGroupRequired)
    else match auth
      case AuthError(m) => Failed(ErrorText(m, "Signup failed"))
      case AuthOk(u) =>
        Created(users[u.uid := AccountDoc(Trim(form.name), Trim(form.email), role, Trim(form.bloodGroup), serverMs)],
                if role == "donor" then DonorDashboard else UserDashboard)
  }

  /** The result of `signIn`. */
  datatype SignInOutcome = SignInError(message: string) | SignedIn(destination: Page)

  const ProfileNotFound := "Profile not found. Please contact support."

  /**
   * `signIn()`: a provider error is shown; a failed profile read shows the
   * read's error message; a user without a profile document gets the
   * "Profile not found" message and stays; otherwise the stored role picks
   * the dashboard.  `readError` is the message of a failed profile read.
   */
  function SignIn(auth: AuthResult, readError: Option<string>, users: Users): (r: SignInOutcome)
    ensures auth.AuthError? ==> r == SignInError(ErrorText(auth.message, "Sign-in failed"))
    ensures auth.AuthOk? && readError.Some? ==> r == SignInError(ErrorText(Val(readError.value), "Sign-in failed"))
    ensures auth.AuthOk? && readError.None? && auth.user.uid !in users ==> r == SignInError(ProfileNotFound)
    ensures r.SignedIn? <==> auth.AuthOk? && readError.None? && auth.user.uid in users
    ensures r.SignedIn? ==> r.destination == DashboardFor(users[auth.user.uid].role)
  {
    match auth
    case AuthError(m) => SignInError(ErrorText(m, "Sign-in failed"))
    case AuthOk(u) =>
      if readError.Some? then SignInError(ErrorText(Val(readError.value), "Sign-in failed"))
      else if u.uid !in users then SignInError(ProfileNotFound)
      else SignedIn(if users[u.uid].role == Val("donor") then DonorDashboard else UserDashboard)
  }

  /**
   * Without a profile document the two routes disagree: signing in shows
   * "Profile not found" and stays, while the page's session listener, which
   * fires on the same sign-in, counts the user as "user" and leaves for
   * the user dashboard.
   */
  lemma SignInWithoutProfile(u: AuthUser, users: Users)
    requires u.uid !in users
    ensures SignIn(AuthOk(u), None, users) == SignInError(ProfileNotFound)
    ensures SessionRedirect(Some(u.uid), true, users) == Some(UserDashboard)
  {
  }

  /** Signing in and resuming a session send a user with a profile to the same dashboard. */
  lemma SignInAgreesWithSession(u: AuthUser, users: Users)
    requires u.uid in users
    ensures SignIn(AuthOk(u), None, users) == SignedIn(SessionRedirect(Some(u.uid), true, users).value)
  {
  }
}

=== FILE: blood_requests.dfy ===
/**
 * The blood-request board (js/blood-requests.js): the per-viewer action on
 * each request, the response list and status label, building new requests
 * and responses, and the "you have responses" banner.
 */
module BloodRequests {
  import opened Wrappers
  import opened Values
  import opened Text
  import opened Profiles
  import opened AccessRequests
  import AuthModule

  /** One donor's response embedded in a request. */
  datatype Response = Response(
    donorId: string,
    donorName: Field<string>,
    donorBloodGroup: Field<string>,
    donorColor: string,
    message: string,
    respondedAt: int)

  /** A `bloodRequests/{id}` document. */
  datatype BloodRequest = BloodRequest(
    createdBy: string,
    creatorRole: Field<string>,
    patientName: string,
    patientAge: int,
    bloodGroup: string,
    hospitalName: string,
    description: string,
    createdAt: Field<TsValue>,
    responses: Field<seq<Response>>)

  /** The `bloodRequests` collection. */
  type Board = map<string, BloodRequest>

  /** The viewer: the signed-in uid and the role from the viewer's profile. */
  datatype Viewer = Viewer(uid: string, role: Field<string>)

  /** The action area of a request card. */
  datatype Action = RespondButton | RespondedBadge | MyRequestBadge | NoAction

  /** Some response on the list was sent by `uid`. */
  predicate HasResponded(rs: seq<Response>, uid: string) {
    exists r :: r in rs && r.donorId == uid
  }

  /**
   * The action a viewer gets on a request: a donor who did not create it
   * gets "Responded" when one of the responses is theirs and "Respond"
   * otherwise; the creator gets "My Request"; anyone else gets nothing.
   */
  function ActionFor(req: BloodRequest, v: Viewer): (a: Action)
    ensures a == MyRequestBadge <==> req.createdBy == v.uid
    ensures a == NoAction <==> req.createdBy != v.uid && !IsDonor(v.role)
    ensures a == RespondedBadge <==>
      req.createdBy != v.uid && IsDonor(v.role) && HasResponded(ListOf(req.responses), v.uid)
    ensures a == RespondButton <==>
      req.createdBy != v.uid && IsDonor(v.role) && !HasResponded(ListOf(req.responses), v.uid)
  {
    var mine := req.createdBy == v.uid;
    if IsDonor(v.role) && !mine then
      (if HasResponded(ListOf(req.responses), v.uid) then RespondedBadge else RespondButton)
    else if mine then MyRequestBadge
    else NoAction
  }

  /** The response panel of a card: hidden, or shown with its count and a plural header. */
  datatype Panel = Hidden | Shown(count: nat, plural: bool)

  /**
   * The response list is shown only to the creator and only when there
   * are responses; its header is plural exactly when there is more than one.
   */
  function PanelFor(req: BloodRequest, v: Viewer): (p: Panel)
    ensures p.Shown? <==> req.createdBy == v.uid && |ListOf(req.responses)| > 0
    ensures p.Shown? ==> p.count == |ListOf(req.responses)| && (p.plural <==> p.count > 1)
  {
    var n := |ListOf(req.responses)|;
    if req.createdBy == v.uid && n > 0 then Shown(n, n > 1) else Hidden
  }

  /** The status label of a card. */
  datatype Label = ResponsesLabel(count: nat) | WaitingForDonors

  /** "N Responses" when there are responses, "Waiting for donors" otherwise; a missing list counts as none. */
  function LabelFor(req: BloodRequest): (l: Label)
    ensures l.ResponsesLabel? <==> req.responses.Val? && req.responses.value != []
    ensures l.ResponsesLabel? ==> l.count == |req.responses.value| > 0
  {
    var n := |ListOf(req.responses)|;
    if n > 0 then ResponsesLabel(n) else WaitingForDonors
  }

  /** The raw fields of the "make a request" form; the age is already an integer. */
  datatype RequestForm = RequestForm(patientName: string, patientAge: int, bloodGroup: string,
                                     hospitalName: string, description: string)

  /**
   * The document posted for a new request: attributed to the viewer, text
   * fields trimmed (the blood group is taken as selected), the age as
   * given with no further check, no responses yet.
   */
  function NewRequest(form: RequestForm, v: Viewer, serverMs: int): (r: BloodRequest)
    ensures r.createdBy == v.uid && r.creatorRole == v.role
    ensures r.patientName == Trim(form.patientName) && r.hospitalName == Trim(form.hospitalName)
    ensures r.description == Trim(form.description) && r.bloodGroup == form.bloodGroup
    ensures r.patientAge == form.patientAge
    ensures r.responses == Val([])
    ensures r.createdAt == Val(Timestamp(serverMs))
    ensures LabelFor(r) == WaitingForDonors && ActionFor(r, v) == MyRequestBadge
  {
    BloodRequest(v.uid, v.role, Trim(form.patientName), form.patientAge, form.bloodGroup,
                 Trim(form.hospitalName), Trim(form.description), Val(Timestamp(serverMs)), Val([]))
  }

  /** The board after posting, and the alert the page shows. */
  datatype Posted = Posted(board: Board, alert: string)

  const PostedAlert := "Request posted successfully!"
  const PostFailedAlert := "Failed to post request."

  /**
   * Posting adds the new document under the fresh id the store assigns and
   * confirms it; when the store refuses the write, the board is unchanged
   * and the failure is alerted.
   */
  function Post(board: Board, newId: string, req: BloodRequest, storeUp: bool): (p: Posted)
    requires newId !in board
    ensures !storeUp ==> p == Posted(board, PostFailedAlert)
    ensures storeUp ==> p.alert == PostedAlert
    ensures storeUp ==> p.board.Keys == board.Keys + {newId} && p.board[newId] == req
    ensures forall k :: k in board ==> k in p.board && p.board[k] == board[k]
  {
    if storeUp then Posted(board[newId := req], PostedAlert) else Posted(board, PostFailedAlert)
  }

  /**
   * A freshly posted request waits for donors; once another donor responds
   * it is labelled "1 Responses", its creator sees a panel of one, and the
   * donor's card shows "Responded".
   */
  lemma PostThenRespond(board: Board, newId: string, form: RequestForm, creator: Viewer, serverMs: int,
                        donorId: string, profile: Profile, messageText: string, nowMs: int)
    requires newId !in board && newId != "" && donorId != creator.uid
    requires IsDonor(profile.role) && Storable(NewResponse(donorId, profile, messageText, nowMs))
    ensures var posted := Post(board, newId, NewRequest(form, creator, serverMs), true).board;
      var s := SubmitResponse(posted, newId, donorId, profile, messageText, nowMs, true);
      && LabelFor(posted[newId]) == WaitingForDonors
      && s.SubmitSaved?
      && LabelFor(s.board[newId]) == ResponsesLabel(1)
      && PanelFor(s.board[newId], creator) == Shown(1, false)
      && ActionFor(s.board[newId], Viewer(donorId, profile.role)) == RespondedBadge
  {
    var posted := Post(board, newId, NewRequest(form, creator, serverMs), true).board;
    var resp := NewResponse(donorId, profile, messageText, nowMs);
    assert ListOf(posted[newId].responses) == [];
    assert UnionAppend([], resp) == [resp];
    var s := SubmitResponse(posted, newId, donorId, profile, messageText, nowMs, true);
    assert s.board[newId].responses == Val([resp]);
    assert resp in ListOf(s.board[newId].responses);
  }

  /** The response a donor sends: built from the viewer's profile, colour defaulting to "#CE1126". */
  function NewResponse(uid: string, profile: Profile, messageText: string, nowMs: int): (r: Response)
    ensures r.donorId == uid && r.donorName == profile.name && r.donorBloodGroup == profile.bloodGroup
    ensures r.donorColor == OrElse(profile.profileColor, "#CE1126")
    ensures r.message == Trim(messageText) && r.respondedAt == nowMs
  {
    Response(uid, profile.name, profile.bloodGroup, OrElse(profile.profileColor, "#CE1126"), Trim(messageText), nowMs)
  }

  /**
   * The store refuses a value holding an undefined field: the response can
   * be written only when the viewer's profile has a name and a blood group
   * key (either may be `null`).
   */
  predicate Storable(r: Response) {
    !r.donorName.Absent? && !r.donorBloodGroup.Absent?
  }

  /** The outcome of submitting the response form. */
  datatype Submitted = NotSubmitted | SubmitFailed | SubmitSaved(board: Board)

  /**
   * Submitting the response form: an empty request id writes nothing;
   * otherwise the response is unioned into the request's list, which
   * fails when the request is gone, the store is unreachable or the
   * response holds an undefined field.  There is no check here that the
   * donor already responded.
   */
  function SubmitResponse(board: Board, reqId: string, uid: string, profile: Profile,
                          messageText: string, nowMs: int, storeUp: bool): (s: Submitted)
    ensures reqId == "" <==> s.NotSubmitted?
    ensures s.SubmitSaved? <==>
      reqId != "" && reqId in board && storeUp && Storable(NewResponse(uid, profile, messageText, nowMs))
    ensures s.SubmitSaved? ==>
      var resp := NewResponse(uid, profile, messageText, nowMs);
      && s.board.Keys == board.Keys
      && s.board[reqId] == board[reqId].(responses := s.board[reqId].responses)
      && s.board[reqId].responses == Val(UnionAppend(ListOf(board[reqId].responses), resp))
      && (forall k :: k in board && k != reqId ==> s.board[k] == board[k])
  {
    if reqId == "" then NotSubmitted
    else if reqId !in board || !storeUp || !Storable(NewResponse(uid, profile, messageText, nowMs)) then SubmitFailed
    else
      var req := board[reqId];
      var resp := NewResponse(uid, profile, messageText, nowMs);
      var updated := req.(responses := Val(UnionAppend(ListOf(req.responses), resp)));
      var b := board[reqId := updated];
      assert b.Keys == board.Keys && b[reqId] == updated;
      SubmitSaved(b)
  }

  /**
   * The write has no duplicate guard: a second response from the same
   * donor with another message is kept beside the first.  Only the card's
   * "Responded" badge keeps a donor from responding twice.
   */
  lemma SecondResponseKept(board: Board, reqId: string, uid: string, profile: Profile, m1: string, m2: string, t: int)
    requires reqId != "" && reqId in board && Trim(m1) != Trim(m2)
    requires !profile.name.Absent? && !profile.bloodGroup.Absent?
    ensures var s1 := SubmitResponse(board, reqId, uid, profile, m1, t, true);
      var s2 := SubmitResponse(s1.board, reqId, uid, profile, m2, t, true);
      && s2.SubmitSaved?
      && NewResponse(uid, profile, m1, t) in ListOf(s2.board[reqId].responses)
      && NewResponse(uid, profile, m2, t) in ListOf(s2.board[reqId].responses)
      && (IsDonor(profile.role) && board[reqId].createdBy != uid ==>
            ActionFor(s1.board[reqId], Viewer(uid, profile.role)) == RespondedBadge)
  {
    var s1 := SubmitResponse(board, reqId, uid, profile, m1, t, true);
    var r1 := NewResponse(uid, profile, m1, t);
    assert r1 in ListOf(s1.board[reqId].responses);
  }

  /**
   * A donor whose profile was written by the module signup page has no
   * blood-group key, so none of that donor's responses is ever saved.
   */
  lemma BaseProfileCannotRespond(board: Board, reqId: string, uid: string, name: string, phone: string,
                                 email: string, messageText: string, nowMs: int, storeUp: bool)
    ensures var profile := AuthModule.BaseUserDoc(name, phone, email, "donor");
      && IsDonor(profile.role)
      && !SubmitResponse(board, reqId, uid, profile, messageText, nowMs, storeUp).SubmitSaved?
  {
  }

  /** The viewer's loaded requests that have responses (`myRequestsWithResponses`), in feed order. */
  function AnsweredRequests(reqs: seq<BloodRequest>, uid: string): (r: seq<BloodRequest>)
    ensures |r| <= |reqs|
    ensures forall x :: x in r <==> x in reqs && x.createdBy == uid && x.responses.Val? && |x.responses.value| > 0
    decreases |reqs|
  {
    if reqs == [] then []
    else
      var x := reqs[0];
      (if x.createdBy == uid && x.responses.Val? && |x.responses.value| > 0 then [x] else [])
        + AnsweredRequests(reqs[1..], uid)
  }

  /** Filtering a feed in two parts keeps the order of the parts: the filter distributes over concatenation. */
  lemma {:induction false} AnsweredConcat(a: seq<BloodRequest>, b: seq<BloodRequest>, uid: string)
    ensures AnsweredRequests(a + b, uid) == AnsweredRequests(a, uid) + AnsweredRequests(b, uid)
    decreases |a|
  {
    if a == [] {
      assert a + b == b;
    } else {
      assert (a + b)[0] == a[0];
      assert (a + b)[1..] == a[1..] + b;
      AnsweredConcat(a[1..], b, uid);
    }
  }

  /**
   * The banner shows exactly when some loaded request of the viewer has a
   * non-empty response list, i.e. when the viewer sees some response panel.
   */
  function ShowBanner(reqs: seq<BloodRequest>, uid: string): (shown: bool)
    ensures shown <==> exists r :: r in reqs && r.createdBy == uid && r.responses.Val? && |r.responses.value| > 0
    ensures shown <==> exists r :: r in reqs && PanelFor(r, Viewer(uid, Absent)).Shown?
  {
    var mine := AnsweredRequests(reqs, uid);
    assert mine != [] ==> mine[0] in mine;
    |mine| > 0
  }
}

=== FILE: cooldown.dfy ===
/**
 * Donation cooldown arithmetic (dashboard.js and the donor directory).
 * Times are integer milliseconds; a day is 86 400 000 ms and the cooldown
 * is 90 days.
 */
module Cooldown {
  import opened Wrappers
  import opened Values
  import opened Profiles

  const DayMs: int := 86400000
  const CooldownDays: int := 90
  const CooldownMs: int := CooldownDays * DayMs

  /**
   * `Math.max(0, Math.floor((now - last) / 86400000))`: the whole days
   * elapsed since `last`, never negative.
   */
  function DaysSince(now: int, last: int): (d: nat)
    ensures now <= last ==> d == 0
    ensures now >= last ==> d * DayMs <= now - last < (d + 1) * DayMs
  {
    var q := (now - last) / DayMs;
    if q < 0 then 0 else q
  }

  /** The cooldown end of a profile, in milliseconds, or `None`. */
  function EndMs(p: Profile): Option<int> {
    TsMillis(p.donationCooldownEnd)
  }

  /** The last donation of a profile, in milliseconds, or `None`. */
  function LastMs(p: Profile): Option<int> {
    TsMillis(p.lastDonationDate)
  }

  /** `!!(endMs && now <= endMs)`: a truthy cooldown end that has not passed yet. */
  function Active(p: Profile, now: int): (active: bool)
    ensures active <==> MillisTruthy(EndMs(p)) && now <= EndMs(p).value
    ensures !p.donationCooldownEnd.Val? ==> !active
  {
    MillisTruthy(EndMs(p)) && now <= EndMs(p).value
  }

  /** The dashboard's donation line. */
  datatype DonationLine = NoRecord | Donated(daysAgo: nat, nextEligible: int)

  /** The donation line together with the state of the record button. */
  datatype DonationView = DonationView(line: DonationLine, buttonDisabled: bool)

  /**
   * `updateDonationStatusUI` for the cached profile (which may be
   * `null`): days since the last donation, next eligible date (the stored
   * cooldown end, else last donation plus 90 days), and a button disabled
   * exactly while the cooldown is active.
   */
  function DonationStatus(profile: Option<Profile>, now: int): (v: DonationView)
    ensures profile.None? ==> v == DonationView(NoRecord, false)
    ensures profile.Some? ==> (v.line.NoRecord? <==> !MillisTruthy(LastMs(profile.value)))
    ensures profile.Some? && v.line.Donated? ==>
      && v.line.daysAgo == DaysSince(now, LastMs(profile.value).value)
      && v.line.nextEligible ==
           (if MillisTruthy(EndMs(profile.value)) then EndMs(profile.value).value
            else LastMs(profile.value).value + 90 * 86400000)
    ensures profile.Some? ==> (v.buttonDisabled <==> Active(profile.value, now))
  {
    if profile.None? then DonationView(NoRecord, false)
    else
      var p := profile.value;
      var last := LastMs(p);
      var line :=
        if MillisTruthy(last) then Donated(DaysSince(now, last.value), MillisOr(EndMs(p), last.value + CooldownMs))
        else NoRecord;
      DonationView(line, Active(p, now))
  }

  /** What the donation button's handler leaves behind. */
  datatype Recorded = Recorded(users: Users, profile: Option<Profile>, saved: bool)

  /**
   * The donation button: writes the server time as the last donation and
   * click time plus 90 days as the cooldown end, then merges the re-read
   * document over the cached profile.  Nothing changes without a signed-in
   * user, a stored profile document, or a reachable store.
   */
  function RecordDonation(users: Users, uid: Option<string>, cached: Option<Profile>,
                          clickMs: int, serverMs: int, storeUp: bool): (r: Recorded)
    ensures r.saved <==> uid.Some? && uid.value in users && storeUp
    ensures !r.saved ==> r.users == users && r.profile == cached
    ensures r.saved ==>
      && r.users.Keys == users.Keys
      && r.profile.Some?
      && r.users[uid.value].donationCooldownEnd == Val(Timestamp(clickMs + 90 * 86400000))
      && r.users[uid.value].lastDonationDate == Val(Timestamp(serverMs))
      && r.profile.value.donationCooldownEnd == r.users[uid.value].donationCooldownEnd
      && r.profile.value.lastDonationDate == r.users[uid.value].lastDonationDate
      && (forall k :: k in users && k != uid.value ==> r.users[k] == users[k])
    ensures r.saved ==>
      && r.users[uid.value] == users[uid.value].(lastDonationDate := Val(Timestamp(serverMs)),
                                                 donationCooldownEnd := Val(Timestamp(clickMs + 90 * 86400000)))
      && r.profile == Some(Assign(cached.GetOr(NoKeys), r.users[uid.value]))
  {
    if uid.None? then Recorded(users, cached, false)
    else
      var patch := NoKeys.(lastDonationDate := Val(Timestamp(serverMs)),
                           donationCooldownEnd := Val(Timestamp(clickMs + CooldownMs)));
      var written := Update(users, uid.value, patch);
      if !storeUp || written.None? then Recorded(users, cached, false)
      else
        var stored := written.value[uid.value];
        Recorded(written.value, Some(Assign(cached.GetOr(NoKeys), stored)), true)
  }

  /**
   * After a recorded donation the cached profile is in cooldown at exactly
   * the instants up to click time plus 90 days, and the dashboard reports
   * that end as the next eligible date.
   */
  lemma {:induction false} RecordedCooldown(users: Users, uid: Option<string>, cached: Option<Profile>,
                                            clickMs: int, serverMs: int, now: int)
    requires uid.Some? && uid.value in users
    requires clickMs >= 0 && serverMs > 0
    ensures var r := RecordDonation(users, uid, cached, clickMs, serverMs, true);
      && (Active(r.profile.value, now) <==> now <= clickMs + CooldownMs)
      && DonationStatus(r.profile, now) ==
           DonationView(Donated(DaysSince(now, serverMs), clickMs + CooldownMs), now <= clickMs + CooldownMs)
  {
    var r := RecordDonation(users, uid, cached, clickMs, serverMs, true);
    assert EndMs(r.profile.value) == Some(clickMs + CooldownMs);
    assert LastMs(r.profile.value) == Some(serverMs);
  }
}

=== FILE: directory.dfy ===
/**
 * The donor directory (js/find-donors.js): loading donors with their
 * defaults, the search filter, the per-donor contact decision and the
 * requester's "Request Contact" action.
 */
module Directory {
  import opened Wrappers
  import opened Values
  import opened Text
  import opened Profiles
  import opened AccessRequests
  import opened Cooldown

  /** A loaded donor: the document id and the document merged over its defaults. */
  datatype Donor = Donor(id: string, doc: Profile)

  /** `data.isActive !== false`: only an explicit `false` hides a donor. */
  predicate Listed(doc: Profile) {
    doc.isActive != Val(false)
  }

  /** The defaults written before the stored fields are spread over them. */
  function Defaults(doc: Profile): Profile {
    NoKeys.(name := Val(OrElse(doc.name, "Anonymous Donor")),
            bloodGroup := Val(OrElse(doc.bloodGroup, "?")),
            location := Val(OrElse(doc.location, OrElse(doc.city, "Location not set"))))
  }

  /**
   * `{name: ..., bloodGroup: ..., location: ..., ...data}`: since the stored
   * fields come last, a default survives only where the key is missing; a
   * present `""` or `null` is kept as stored.  All other fields are the
   * stored ones.
   */
  function WithDefaults(doc: Profile): (r: Profile)
    ensures r.name == (if doc.name.Absent? then Val("Anonymous Donor") else doc.name)
    ensures r.bloodGroup == (if doc.bloodGroup.Absent? then Val("?") else doc.bloodGroup)
    ensures r.location ==
      (if doc.location.Absent? then Val(if Truthy(doc.city) then doc.city.value else "Location not set")
       else doc.location)
    ensures r == doc.(name := r.name, bloodGroup := r.bloodGroup, location := r.location)
  {
    Assign(Defaults(doc), doc)
  }

  /** `loadDonors`: the listed documents of the snapshot, with defaults, in snapshot order. */
  function LoadDonors(snapshot: seq<(string, Profile)>): (r: seq<Donor>)
    ensures |r| <= |snapshot|
    ensures forall d :: d in r ==> Listed(d.doc)
    ensures forall p :: p in snapshot && Listed(p.1) ==> Donor(p.0, WithDefaults(p.1)) in r
    ensures forall d :: d in r ==> exists p :: p in snapshot && d == Donor(p.0, WithDefaults(p.1))
    decreases |snapshot|
  {
    if snapshot == [] then []
    else
      var p := snapshot[0];
      var rest := LoadDonors(snapshot[1..]);
      assert forall q :: q in snapshot ==> q == p || q in snapshot[1..];
      (if Listed(p.1) then [Donor(p.0, WithDefaults(p.1))] else []) + rest
  }

  /** Loading a concatenated snapshot loads each part: the directory keeps snapshot order. */
  lemma {:induction false} LoadDonorsConcat(a: seq<(string, Profile)>, b: seq<(string, Profile)>)
    ensures LoadDonors(a + b) == LoadDonors(a) + LoadDonors(b)
    decreases |a|
  {
    if a == [] {
      assert a + b == b;
    } else {
      assert (a + b)[1..] == a[1..] + b;
      LoadDonorsConcat(a[1..], b);
    }
  }

  /** The three search controls: name text, location text and the blood-group selection. */
  datatype Query = Query(nameText: string, locationText: string, group: string)

  /** A donor whose name and location are strings; `toLowerCase` throws on anything else. */
  predicate Searchable(d: Donor) {
    d.doc.name.Val? && d.doc.location.Val?
  }

  /**
   * A donor matches when the trimmed, lower-cased terms occur in the
   * lower-cased name and location, and the selection is "All" or exactly
   * the donor's group.
   */
  predicate Matches(d: Donor, q: Query)
    requires Searchable(d)
  {
    && Contains(Lower(d.doc.name.value), Lower(Trim(q.nameText)))
    && Contains(Lower(d.doc.location.value), Lower(Trim(q.locationText)))
    && (q.group == "All" || d.doc.bloodGroup == Val(q.group))
  }

  function Select(ds: seq<Donor>, q: Query): (r: seq<Donor>)
    requires forall d :: d in ds ==> Searchable(d)
    ensures forall d :: d in r <==> d in ds && Matches(d, q)
    decreases |ds|
  {
    if ds == [] then []
    else
      var head := if Matches(ds[0], q) then [ds[0]] else [];
      var rest := Select(ds[1..], q);
      assert forall d :: d in head + rest <==> d in head || d in rest;
      assert forall d :: d in ds <==> d == ds[0] || d in ds[1..];
      head + rest
  }

  lemma {:induction false} SelectConcat(a: seq<Donor>, b: seq<Donor>, q: Query)
    requires forall d :: d in a + b ==> Searchable(d)
    ensures Select(a + b, q) == Select(a, q) + Select(b, q)
    decreases |a|
  {
    if a == [] {
      assert a + b == b;
    } else {
      assert (a + b)[1..] == a[1..] + b;
      SelectConcat(a[1..], b, q);
    }
  }

  /**
   * The filter of `renderDonors`: fails (the lower-casing throws) when a
   * loaded donor has a non-string name or location; otherwise keeps the
   * matching donors in their loaded order.
   */
  function FilterDonors(ds: seq<Donor>, q: Query): (r: Result<seq<Donor>>)
    ensures r.Success? <==> forall d :: d in ds ==> Searchable(d)
    ensures r.Success? ==> forall d :: d in r.value <==> d in ds && Matches(d, q)
    ensures r.Success? ==> r.value == Select(ds, q)
  {
    if forall d :: d in ds ==> Searchable(d) then Success(Select(ds, q)) else Failure("TypeError")
  }

  /** Empty (or all-blank) terms and the "All" selection keep every donor. */
  lemma {:induction false} EmptyQueryKeepsAll(ds: seq<Donor>, q: Query)
    requires forall d :: d in ds ==> Searchable(d)
    requires AllSpace(q.nameText) && AllSpace(q.locationText) && q.group == "All"
    ensures FilterDonors(ds, q) == Success(ds)
    decreases |ds|
  {
    if ds != [] {
      assert ds[0] in ds;
      assert Trim(q.nameText) == [] && Trim(q.locationText) == [];
      ContainsEmpty(Lower(ds[0].doc.name.value));
      ContainsEmpty(Lower(ds[0].doc.location.value));
      assert forall d :: d in ds[1..] ==> d in ds;
      EmptyQueryKeepsAll(ds[1..], q);
      assert ds == [ds[0]] + ds[1..];
    }
  }

  /** The contact area of a donor card. */
  datatype Contact = NoContact | Phone(text: string) | ApprovedPhone(text: string) | PendingButton | RequestButton

  /** The availability badge of a donor card. */
  datatype Availability = Cooling(daysAgo: nat) | AvailableNow

  /** A donor card: whom it shows, its badge and its contact area. */
  datatype Card = Card(id: string, availability: Availability, contact: Contact)

  /** Index `i` holds the first entry of `uid`. */
  predicate FirstAt(reqs: seq<AccessRequest>, uid: string, i: int) {
    && 0 <= i < |reqs| && reqs[i].requesterId == uid
    && forall j :: 0 <= j < i ==> reqs[j].requesterId != uid
  }

  /** Index `i` holds the last entry of `uid`. */
  predicate LastAt(reqs: seq<AccessRequest>, uid: string, i: int) {
    && 0 <= i < |reqs| && reqs[i].requesterId == uid
    && forall j :: i < j < |reqs| ==> reqs[j].requesterId != uid
  }

  /** The first entry of `uid` in the list (`Array.prototype.find`). */
  function FindFirst(reqs: seq<AccessRequest>, uid: string): (r: Option<AccessRequest>)
    ensures r.None? <==> forall i :: 0 <= i < |reqs| ==> reqs[i].requesterId != uid
    ensures r.Some? ==> exists i :: FirstAt(reqs, uid, i) && reqs[i] == r.value
    decreases |reqs|
  {
    if reqs == [] then None
    else if reqs[0].requesterId == uid then
      assert FirstAt(reqs, uid, 0);
      Some(reqs[0])
    else
      var r := FindFirst(reqs[1..], uid);
      assert r.Some? ==> exists i :: FirstAt(reqs, uid, i) && reqs[i] == r.value by {
        if r.Some? {
          var k :| FirstAt(reqs[1..], uid, k) && reqs[1..][k] == r.value;
          assert FirstAt(reqs, uid, k + 1) by {
            forall j | 0 <= j < k + 1 ensures reqs[j].requesterId != uid {
              if j > 0 {
                assert reqs[j] == reqs[1..][j - 1];
              }
            }
          }
        }
      }
      assert r.None? ==> forall i :: 0 <= i < |reqs| ==> reqs[i].requesterId != uid by {
        if r.None? {
          forall i | 0 < i < |reqs| ensures reqs[i].requesterId != uid {
            assert reqs[i] == reqs[1..][i - 1];
          }
        }
      }
      r
  }

  /** The last entry of `uid` in the list, the most recent request. */
  function FindLast(reqs: seq<AccessRequest>, uid: string): (r: Option<AccessRequest>)
    ensures r.None? <==> forall i :: 0 <= i < |reqs| ==> reqs[i].requesterId != uid
    ensures r.Some? ==> exists i :: LastAt(reqs, uid, i) && reqs[i] == r.value
    decreases |reqs|
  {
    if reqs == [] then None
    else if reqs[|reqs| - 1].requesterId == uid then
      assert LastAt(reqs, uid, |reqs| - 1);
      Some(reqs[|reqs| - 1])
    else
      var front := reqs[..|reqs| - 1];
      var r := FindLast(front, uid);
      assert forall j :: 0 <= j < |front| ==> front[j] == reqs[j];
      assert forall i :: LastAt(front, uid, i) ==> LastAt(reqs, uid, i);
      r
  }

  lemma LastAtUnique(reqs: seq<AccessRequest>, uid: string, i: int, k: int)
    requires LastAt(reqs, uid, i) && LastAt(reqs, uid, k)
    ensures i == k
  {
  }

  lemma FirstAtUnique(reqs: seq<AccessRequest>, uid: string, i: int, k: int)
    requires FirstAt(reqs, uid, i) && FirstAt(reqs, uid, k)
    ensures i == k
  {
  }

  /**
   * The contact area of a locked donor, given the viewer's deciding entry:
   * an approved entry shows the phone, a pending one "Request Pending",
   * anything else, or no entry, "Request Contact".
   */
  function Decide(mine: Option<AccessRequest>, phone: string): (c: Contact)
    ensures c.ApprovedPhone? <==> mine.Some? && mine.value.status == Approved
    ensures c.ApprovedPhone? ==> c.text == phone
    ensures c == PendingButton <==> mine.Some? && mine.value.status == Pending
    ensures c.ApprovedPhone? || c == PendingButton || c == RequestButton
  {
    if mine.Some? && mine.value.status == Approved then ApprovedPhone(phone)
    else if mine.Some? && mine.value.status == Pending then PendingButton
    else RequestButton
  }

  /**
   * The locked-donor decision as written: the viewer's FIRST entry
   * decides between the phone, "Request Pending" and "Request Contact".
   */
  function LockedContactAsWritten(reqs: Field<seq<AccessRequest>>, viewer: Option<string>, phone: string): (c: Contact)
    ensures viewer.None? ==> c == RequestButton
    ensures viewer.Some? ==>
      c == Decide(FindFirst(ListOf(reqs), viewer.value), phone)
    ensures c.ApprovedPhone? || c == PendingButton || c == RequestButton
    ensures c.ApprovedPhone? ==> c.text == phone
    ensures c.ApprovedPhone? <==>
      (viewer.Some? && exists i :: FirstAt(ListOf(reqs), viewer.value, i) && ListOf(reqs)[i].status == Approved)
    ensures c == PendingButton <==>
      (viewer.Some? && exists i :: FirstAt(ListOf(reqs), viewer.value, i) && ListOf(reqs)[i].status == Pending)
  {
    var mine := if viewer.Some? then FindFirst(ListOf(reqs), viewer.value) else None;
    if viewer.Some? then
      var list := ListOf(reqs);
      assert forall i :: FirstAt(list, viewer.value, i) ==> mine == Some(list[i]) by {
        forall i | FirstAt(list, viewer.value, i) ensures mine == Some(list[i]) {
          var k :| FirstAt(list, viewer.value, k) && list[k] == mine.value;
          FirstAtUnique(list, viewer.value, i, k);
        }
      }
      Decide(mine, phone)
    else
      Decide(mine, phone)
  }

  /**
   * The locked-donor decision as intended: the viewer's LATEST entry
   * decides, so a request sent after an ignored one shows as pending.
   */
  function LockedContact(reqs: Field<seq<AccessRequest>>, viewer: Option<string>, phone: string): (c: Contact)
    ensures viewer.None? ==> c == RequestButton
    ensures viewer.Some? ==> c == Decide(FindLast(ListOf(reqs), viewer.value), phone)
    ensures c.ApprovedPhone? ==> c.text == phone
    ensures c.ApprovedPhone? || c == PendingButton || c == RequestButton
    ensures c.ApprovedPhone? <==>
      (viewer.Some? && exists i :: LastAt(ListOf(reqs), viewer.value, i) && ListOf(reqs)[i].status == Approved)
    ensures c == PendingButton <==>
      (viewer.Some? && exists i :: LastAt(ListOf(reqs), viewer.value, i) && ListOf(reqs)[i].status == Pending)
  {
    var mine := if viewer.Some? then FindLast(ListOf(reqs), viewer.value) else None;
    if viewer.Some? then
      var list := ListOf(reqs);
      assert forall i :: LastAt(list, viewer.value, i) ==> mine == Some(list[i]) by {
        forall i | LastAt(list, viewer.value, i) ensures mine == Some(list[i]) {
          var k :| LastAt(list, viewer.value, k) && list[k] == mine.value;
          LastAtUnique(list, viewer.value, i, k);
        }
      }
      Decide(mine, phone)
    else
      Decide(mine, phone)
  }

  /** The phone line: the stored phone when truthy, else "No phone". */
  function PhoneText(doc: Profile): string {
    OrElse(doc.phone, "No phone")
  }

  /**
   * The card `renderDonors` draws for one donor and viewer at `now`, as
   * written.  A cooling donor is listed with the days since donation (0
   * without a last donation) and no contact; an available donor whose
   * `profileLocked` is not exactly `true` shows the phone; a locked one
   * shows what the viewer's FIRST access request decides.
   */
  function CardFor(d: Donor, viewer: Option<string>, now: int): (c: Card)
    ensures c.id == d.id
    ensures Active(d.doc, now) <==> c.availability.Cooling?
    ensures Active(d.doc, now) ==> c.contact == NoContact
    ensures Active(d.doc, now) ==>
      c.availability.daysAgo == (if MillisTruthy(LastMs(d.doc)) then DaysSince(now, LastMs(d.doc).value) else 0)
    ensures !Active(d.doc, now) && d.doc.profileLocked != Val(true) ==> c.contact == Phone(PhoneText(d.doc))
    ensures !Active(d.doc, now) && d.doc.profileLocked == Val(true) ==>
      c.contact == LockedContactAsWritten(d.doc.accessRequests, viewer, PhoneText(d.doc))
  {
    if Active(d.doc, now) then
      Card(d.id, Cooling(DaysSince(now, MillisOr(LastMs(d.doc), now))), NoContact)
    else if d.doc.profileLocked != Val(true) then
      Card(d.id, AvailableNow, Phone(PhoneText(d.doc)))
    else
      Card(d.id, AvailableNow, LockedContactAsWritten(d.doc.accessRequests, viewer, PhoneText(d.doc)))
  }

  /**
   * The corrected card: as `CardFor`, except that a locked, available
   * donor shows what the viewer's LATEST access request decides.  The two
   * cards differ only when the viewer's first and latest entries differ.
   */
  function CardForLatest(d: Donor, viewer: Option<string>, now: int): (c: Card)
    ensures c.id == d.id && c.availability == CardFor(d, viewer, now).availability
    ensures !Active(d.doc, now) && d.doc.profileLocked == Val(true) ==>
      c.contact == LockedContact(d.doc.accessRequests, viewer, PhoneText(d.doc))
    ensures Active(d.doc, now) || d.doc.profileLocked != Val(true) ==> c == CardFor(d, viewer, now)
    ensures c.contact != CardFor(d, viewer, now).contact ==>
      viewer.Some? && FindFirst(ListOf(d.doc.accessRequests), viewer.value)
                      != FindLast(ListOf(d.doc.accessRequests), viewer.value)
  {
    var c := CardFor(d, viewer, now);
    if !Active(d.doc, now) && d.doc.profileLocked == Val(true) then
      c.(contact := LockedContact(d.doc.accessRequests, viewer, PhoneText(d.doc)))
    else
      c
  }

  /**
   * After the donor resolves `requester` with `action`, the requester's
   * deciding entry carries `action`, whichever entry is chosen: both the
   * as-written and the intended decision reflect it.
   */
  lemma ResolveThenDecide(reqs: seq<AccessRequest>, requester: string, action: Status, phone: string)
    ensures var after := Val(Resolve(reqs, requester, action));
      var expected := if forall i :: 0 <= i < |reqs| ==> reqs[i].requesterId != requester then RequestButton
                      else Decide(Some(AccessRequest(requester, "", action)), phone);
      && LockedContact(after, Some(requester), phone) == expected
      && LockedContactAsWritten(after, Some(requester), phone) == expected
  {
    var r := Resolve(reqs, requester, action);
    assert forall i :: 0 <= i < |r| ==> r[i].requesterId == reqs[i].requesterId;
    assert ListOf(Val(r)) == r;
    DecideResolved(r, requester, action, FindLast(r, requester), phone);
    DecideResolved(r, requester, action, FindFirst(r, requester), phone);
  }

  /**
   * In a resolved list, a decision taken on any entry of `requester` that
   * is found (none exactly when the requester never asked) reflects `action`.
   */
  lemma DecideResolved(r: seq<AccessRequest>, requester: string, action: Status, found: Option<AccessRequest>,
                       phone: string)
    requires forall i :: 0 <= i < |r| && r[i].requesterId == requester ==> r[i].status == action
    requires found.None? <==> forall i :: 0 <= i < |r| ==> r[i].requesterId != requester
    requires found.Some? ==> exists i :: 0 <= i < |r| && r[i].requesterId == requester && r[i] == found.value
    ensures Decide(found, phone) ==
      if found.None? then RequestButton else Decide(Some(AccessRequest(requester, "", action)), phone)
  {
  }

  /** The position of the first loaded donor with id `id` (`findIndex`). */
  function FindIndex(ds: seq<Donor>, id: string): (r: Option<nat>)
    ensures r.None? <==> forall i :: 0 <= i < |ds| ==> ds[i].id != id
    ensures r.Some? ==> r.value < |ds| && ds[r.value].id == id && forall j :: 0 <= j < r.value ==> ds[j].id != id
    decreases |ds|
  {
    if ds == [] then None
    else if ds[0].id == id then Some(0)
    else
      var r := FindIndex(ds[1..], id);
      if r.None? then None else Some(r.value + 1)
  }

  /** The requester's display name: the stored name, else the account's display name, else "Anonymous". */
  function RequesterName(doc: Option<Profile>, displayName: Field<string>): (n: string)
    ensures n != ""
    ensures doc.None? ==> n == "Anonymous"
    ensures doc.Some? && Truthy(doc.value.name) ==> n == doc.value.name.value
    ensures doc.Some? && !Truthy(doc.value.name) && Truthy(displayName) ==> n == displayName.value
    ensures doc.Some? && !Truthy(doc.value.name) && !Truthy(displayName) ==> n == "Anonymous"
  {
    if doc.Some? then OrElse(doc.value.name, OrElse(displayName, "Anonymous")) else "Anonymous"
  }

  /** What `requestAccess` leaves behind: the store, the loaded donors, and whether the request was sent. */
  datatype Requested = Requested(users: Users, donors: seq<Donor>, sent: bool)

  /**
   * `requestAccess(donorId)`: unions a pending entry of the viewer into the
   * donor's stored list; only once that succeeds, appends the same entry
   * (without a duplicate check) to the loaded copy of that donor, if the
   * donor is loaded.
   */
  function RequestAccess(users: Users, donors: seq<Donor>, viewer: Option<string>, viewerName: string,
                         donorId: string, storeUp: bool): (r: Requested)
    ensures r.sent <==> viewer.Some? && storeUp && donorId in users
    ensures !r.sent ==> r.users == users && r.donors == donors
    ensures r.sent ==>
      var entry := AccessRequest(viewer.value, viewerName, Pending);
      && r.users.Keys == users.Keys
      && r.users[donorId] == users[donorId].(accessRequests := r.users[donorId].accessRequests)
      && r.users[donorId].accessRequests == Val(UnionAppend(ListOf(users[donorId].accessRequests), entry))
      && (forall k :: k in users && k != donorId ==> r.users[k] == users[k])
      && |r.donors| == |donors|
      && (FindIndex(donors, donorId).None? ==> r.donors == donors)
      && (FindIndex(donors, donorId).Some? ==>
            var i := FindIndex(donors, donorId).value;
            && r.donors[i].id == donorId
            && r.donors[i].doc == donors[i].doc.(accessRequests := Val(ListOf(donors[i].doc.accessRequests) + [entry]))
            && forall j :: 0 <= j < |donors| && j != i ==> r.donors[j] == donors[j])
  {
    if viewer.None? || !storeUp || donorId !in users then Requested(users, donors, false)
    else
      var entry := AccessRequest(viewer.value, viewerName, Pending);
      var stored := users[donorId];
      var users' := users[donorId := stored.(accessRequests := Val(UnionAppend(ListOf(stored.accessRequests), entry)))];
      var idx := FindIndex(donors, donorId);
      if idx.None? then Requested(users', donors, true)
      else
        var d := donors[idx.value];
        Requested(users', donors[idx.value := d.(doc := d.doc.(accessRequests := Val(ListOf(d.doc.accessRequests) + [entry])))], true)
  }

  /**
   * After a successful request, the viewer's corrected card for a loaded,
   * locked, available donor shows "Request Pending".
   */
  lemma RequestShowsPending(users: Users, donors: seq<Donor>, viewer: string, viewerName: string,
                            donorId: string, now: int)
    requires donorId in users && FindIndex(donors, donorId).Some?
    ensures var r := RequestAccess(users, donors, Some(viewer), viewerName, donorId, true);
      var i := FindIndex(donors, donorId).value;
      r.donors[i].doc.profileLocked == Val(true) && !Active(r.donors[i].doc, now) ==>
        CardForLatest(r.donors[i], Some(viewer), now).contact == PendingButton
  {
    var r := RequestAccess(users, donors, Some(viewer), viewerName, donorId, true);
    var i := FindIndex(donors, donorId).value;
    var list := ListOf(r.donors[i].doc.accessRequests);
    assert list[|list| - 1] == AccessRequest(viewer, viewerName, Pending);
  }

  /**
   * The as-written card after an ignored request: the viewer sends a new
   * request, but the old ignored entry comes first, so the card still
   * offers "Request Contact"; the corrected card shows "Request Pending".
   */
  lemma ReRequestAfterIgnoreAsWritten(viewer: string, viewerName: string, donorId: string, now: int)
    ensures var doc := WithDefaults(NoKeys.(profileLocked := Val(true),
                          accessRequests := Val([AccessRequest(viewer, viewerName, Ignored)])));
      var users := map[donorId := doc];
      var donors := [Donor(donorId, doc)];
      var r := RequestAccess(users, donors, Some(viewer), viewerName, donorId, true);
      var list := r.donors[0].doc.accessRequests;
      && list == Val([AccessRequest(viewer, viewerName, Ignored), AccessRequest(viewer, viewerName, Pending)])
      && LockedContactAsWritten(list, Some(viewer), PhoneText(r.donors[0].doc)) == RequestButton
      && LockedContact(list, Some(viewer), PhoneText(r.donors[0].doc)) == PendingButton
      && CardFor(r.donors[0], Some(viewer), now).contact == RequestButton
      && CardForLatest(r.donors[0], Some(viewer), now).contact == PendingButton
  {
    var doc := WithDefaults(NoKeys.(profileLocked := Val(true),
                   accessRequests := Val([AccessRequest(viewer, viewerName, Ignored)])));
    var donors := [Donor(donorId, doc)];
    assert FindIndex(donors, donorId) == Some(0);
    var before := [AccessRequest(viewer, viewerName, Ignored)];
    assert doc.accessRequests == Val(before);
    var r := RequestAccess(map[donorId := doc], donors, Some(viewer), viewerName, donorId, true);
    assert r.donors[0].doc.accessRequests == Val(before + [AccessRequest(viewer, viewerName, Pending)]);
    var entry := AccessRequest(viewer, viewerName, Pending);
    assert entry !in before;
    var list := before + [entry];
    assert list == [AccessRequest(viewer, viewerName, Ignored), AccessRequest(viewer, viewerName, Pending)];
    assert FindFirst(list, viewer) == Some(before[0]);
    assert FindLast(list, viewer) == Some(entry);
    assert r.donors[0].doc.accessRequests == Val(list);
    var phone := PhoneText(r.donors[0].doc);
    assert LockedContactAsWritten(Val(list), Some(viewer), phone) == RequestButton;
    assert LockedContact(Val(list), Some(viewer), phone) == PendingButton;
    assert !Active(r.donors[0].doc, now);
  }

  /**
   * End to end: a listed, locked, available donor; the requester asks for
   * contact; the donor, with the stored profile loaded, approves; loading
   * the stored document again lists the donor, and the card drawn from it
   * shows the requester the phone, on the as-written and on the corrected
   * card alike.
   */
  lemma ApproveThenPhoneShown(users: Users, donorId: string, requester: string, requesterName: string, now: int)
    requires donorId in users && Listed(users[donorId])
    requires users[donorId].profileLocked == Val(true) && !Active(users[donorId], now)
    ensures var asked := RequestAccess(users, [], Some(requester), requesterName, donorId, true);
      var handled := HandleRequest(asked.users, DonorSession(Some(donorId), Some(asked.users[donorId])),
                                   requester, Approved, true);
      var loaded := LoadDonors([(donorId, handled.users[donorId])]);
      && loaded == [Donor(donorId, WithDefaults(handled.users[donorId]))]
      && CardFor(loaded[0], Some(requester), now).contact == ApprovedPhone(PhoneText(loaded[0].doc))
      && CardForLatest(loaded[0], Some(requester), now).contact == ApprovedPhone(PhoneText(loaded[0].doc))
  {
    var asked := RequestAccess(users, [], Some(requester), requesterName, donorId, true);
    var list := ListOf(asked.users[donorId].accessRequests);
    var entry := AccessRequest(requester, requesterName, Pending);
    assert entry in list;
    var k :| 0 <= k < |list| && list[k] == entry;
    var handled := HandleRequest(asked.users, DonorSession(Some(donorId), Some(asked.users[donorId])),
                                 requester, Approved, true);
    var stored := handled.users[donorId];
    assert stored.isActive == users[donorId].isActive;
    var snapshot := [(donorId, stored)];
    assert snapshot[1..] == [];
    assert LoadDonors(snapshot) == [Donor(donorId, WithDefaults(stored))];
    var doc := WithDefaults(stored);
    assert doc.accessRequests == Val(Resolve(list, requester, Approved));
    assert doc.profileLocked == Val(true);
    assert EndMs(doc) == EndMs(users[donorId]);
    ResolveThenDecide(list, requester, Approved, PhoneText(doc));
    var d := Donor(donorId, doc);
    assert CardFor(d, Some(requester), now).contact
        == LockedContactAsWritten(doc.accessRequests, Some(requester), PhoneText(doc));
  }

}

=== FILE: escape.dfy ===
/**
 * The two `escapeHtml` helpers of the pages.  The short one (dashboard and
 * blood-request board) rewrites `&`, `<` and `>`; the long one (donor
 * directory) also rewrites `"` and `'`.  Both are written as a chain of
 * global replacements; they are proved equal to a per-character encoding,
 * safe for HTML text, and inverted by entity decoding.
 */
module Escape {
  import opened Values
  import opened Text

  /** The entity the short helper writes for one character. */
  function ShortEntity(c: char): string {
    if c == '&' then "&amp;" else if c == '<' then "&lt;" else if c == '>' then "&gt;" else [c]
  }

  /** The entity the long helper writes for one character. */
  function LongEntity(c: char): string {
    if c == '"' then "&quot;" else if c == '\'' then "&#039;" else ShortEntity(c)
  }

  /** Per-character encoding: each character replaced by its entity. */
  function Encode(s: string, long: bool): string
    decreases |s|
  {
    if s == [] then [] else (if long then LongEntity(s[0]) else ShortEntity(s[0])) + Encode(s[1..], long)
  }

  /** `p` appears in `r` at index `i`. */
  predicate HasAt(r: string, i: int, p: string) {
    0 <= i && i + |p| <= |r| && r[i..i + |p|] == p
  }

  /** Index `i` of `r` starts one of the entities the helper writes. */
  predicate EntityAt(r: string, i: int, long: bool) {
    || HasAt(r, i, "&amp;") || HasAt(r, i, "&lt;") || HasAt(r, i, "&gt;")
    || (long && (HasAt(r, i, "&quot;") || HasAt(r, i, "&#039;")))
  }

  /** Safe HTML text: no raw angle bracket, and every `&` begins an entity. */
  predicate SafeText(r: string, long: bool) {
    && '<' !in r && '>' !in r
    && (long ==> '"' !in r && '\'' !in r)
    && forall i :: 0 <= i < |r| && r[i] == '&' ==> EntityAt(r, i, long)
  }

  /** Entity decoding, the reader's side of the helpers. */
  function Unescape(r: string): string
    decreases |r|
  {
    if r == [] then []
    else if "&amp;" <= r then "&" + Unescape(r[5..])
    else if "&lt;" <= r then "<" + Unescape(r[4..])
    else if "&gt;" <= r then ">" + Unescape(r[4..])
    else if "&quot;" <= r then "\"" + Unescape(r[6..])
    else if "&#039;" <= r then "'" + Unescape(r[6..])
    else [r[0]] + Unescape(r[1..])
  }

  /** The short helper as written: three global replacements in sequence. */
  function ShortChain(s: string): string {
    ReplaceAll(ReplaceAll(ReplaceAll(s, '&', "&amp;"), '<', "&lt;"), '>', "&gt;")
  }

  /** The long helper as written: five global replacements in sequence. */
  function LongChain(s: string): string {
    ReplaceAll(ReplaceAll(ShortChain(s), '"', "&quot;"), '\'', "&#039;")
  }

  /** The three replacements turn a single character into its short entity. */
  lemma ShortChainChar(c: char)
    ensures ShortChain([c]) == ShortEntity(c)
  {
    ReplaceSingle(c, '&', "&amp;");
    if c == '&' {
      AmpEntityStays();
    } else if c == '<' {
      ReplaceSingle(c, '<', "&lt;");
      assert '>' !in "&lt;";
      ReplaceAbsent("&lt;", '>', "&gt;");
    } else {
      ReplaceSingle(c, '<', "&lt;");
      ReplaceSingle(c, '>', "&gt;");
    }
  }

  /** `&amp;` passes the angle-bracket replacements unchanged. */
  lemma AmpEntityStays()
    ensures ReplaceAll(ReplaceAll("&amp;", '<', "&lt;"), '>', "&gt;") == "&amp;"
  {
    assert '<' !in "&amp;" && '>' !in "&amp;";
    ReplaceAbsent("&amp;", '<', "&lt;");
    ReplaceAbsent("&amp;", '>', "&gt;");
  }

  /** The short chain works character by character. */
  lemma ShortChainConcat(a: string, b: string)
    ensures ShortChain(a + b) == ShortChain(a) + ShortChain(b)
  {
    var a1, b1 := ReplaceAll(a, '&', "&amp;"), ReplaceAll(b, '&', "&amp;");
    ReplaceAllConcat(a, b, '&', "&amp;");
    var a2, b2 := ReplaceAll(a1, '<', "&lt;"), ReplaceAll(b1, '<', "&lt;");
    ReplaceAllConcat(a1, b1, '<', "&lt;");
    ReplaceAllConcat(a2, b2, '>', "&gt;");
  }

  lemma {:induction false} ShortChainIsEncode(s: string)
    ensures ShortChain(s) == Encode(s, false)
    decreases |s|
  {
    if s != [] {
      assert s == [s[0]] + s[1..];
      ShortChainConcat([s[0]], s[1..]);
      ShortChainChar(s[0]);
      ShortChainIsEncode(s[1..]);
    }
  }

  lemma {:induction false} LongChainIsEncode(s: string)
    ensures LongChain(s) == Encode(s, true)
    decreases |s|
  {
    ShortChainIsEncode(s);
    EncodeLongFromShort(s);
  }

  /** The two quote replacements turn a short entity into the long one. */
  lemma QuoteStepChar(c: char)
    ensures ReplaceAll(ReplaceAll(ShortEntity(c), '"', "&quot;"), '\'', "&#039;") == LongEntity(c)
  {
    var e := ShortEntity(c);
    if c == '&' || c == '<' || c == '>' {
      ReplaceAbsent(e, '"', "&quot;");
      ReplaceAbsent(e, '\'', "&#039;");
    } else {
      ReplaceSingle(c, '"', "&quot;");
      if c == '"' {
        ReplaceAbsent("&quot;", '\'', "&#039;");
      } else {
        ReplaceSingle(c, '\'', "&#039;");
      }
    }
  }

  lemma {:induction false} EncodeLongFromShort(s: string)
    ensures ReplaceAll(ReplaceAll(Encode(s, false), '"', "&quot;"), '\'', "&#039;") == Encode(s, true)
    decreases |s|
  {
    if s != [] {
      var e, rest := ShortEntity(s[0]), Encode(s[1..], false);
      ReplaceAllConcat(e, rest, '"', "&quot;");
      ReplaceAllConcat(ReplaceAll(e, '"', "&quot;"), ReplaceAll(rest, '"', "&quot;"), '\'', "&#039;");
      QuoteStepChar(s[0]);
      EncodeLongFromShort(s[1..]);
    }
  }

  /** An entity seen in `a` is still there in `a + b`. */
  lemma EntityAtPrefix(a: string, b: string, i: int, long: bool)
    requires EntityAt(a, i, long)
    ensures EntityAt(a + b, i, long)
  {
    forall p | HasAt(a, i, p) ensures HasAt(a + b, i, p) {
      assert (a + b)[i..i + |p|] == a[i..i + |p|];
    }
  }

  /** An entity seen in `b` is still there, shifted, in `a + b`. */
  lemma EntityAtSuffix(a: string, b: string, i: int, long: bool)
    requires EntityAt(b, i, long)
    ensures EntityAt(a + b, |a| + i, long)
  {
    forall p | HasAt(b, i, p) ensures HasAt(a + b, |a| + i, p) {
      assert (a + b)[|a| + i..|a| + i + |p|] == b[i..i + |p|];
    }
  }

  lemma SafeConcat(a: string, b: string, long: bool)
    requires SafeText(a, long) && SafeText(b, long)
    ensures SafeText(a + b, long)
  {
    var r := a + b;
    forall i | 0 <= i < |r| && r[i] == '&' ensures EntityAt(r, i, long) {
      if i < |a| {
        EntityAtPrefix(a, b, i, long);
      } else {
        assert b[i - |a|] == '&';
        EntityAtSuffix(a, b, i - |a|, long);
      }
    }
  }

  lemma EntitySafe(c: char, long: bool)
    ensures SafeText(if long then LongEntity(c) else ShortEntity(c), long)
  {
    var e := if long then LongEntity(c) else ShortEntity(c);
    forall i | 0 <= i < |e| && e[i] == '&' ensures EntityAt(e, i, long) {
      assert i == 0;
      assert e[0..|e|] == e;
    }
  }

  lemma {:induction false} EncodeSafe(s: string, long: bool)
    ensures SafeText(Encode(s, long), long)
    decreases |s|
  {
    if s != [] {
      EntitySafe(s[0], long);
      EncodeSafe(s[1..], long);
      SafeConcat(if long then LongEntity(s[0]) else ShortEntity(s[0]), Encode(s[1..], long), long);
    }
  }

  lemma UnescapeEntity(c: char, x: string, long: bool)
    ensures Unescape((if long then LongEntity(c) else ShortEntity(c)) + x) == [c] + Unescape(x)
  {
    var e := if long then LongEntity(c) else ShortEntity(c);
    var r := e + x;
    if c == '&' {
      assert "&amp;" <= r && r[5..] == x;
    } else if c == '<' {
      assert r[1] == 'l';
      assert "&lt;" <= r && r[4..] == x;
    } else if c == '>' {
      assert r[1] == 'g';
      assert "&gt;" <= r && r[4..] == x;
    } else if long && c == '"' {
      assert r[1] == 'q';
      assert "&quot;" <= r && r[6..] == x;
    } else if long && c == '\'' {
      assert r[1] == '#';
      assert "&#039;" <= r && r[6..] == x;
    } else {
      assert r[0] == c && r[1..] == x;
    }
  }

  lemma {:induction false} UnescapeEncode(s: string, long: bool)
    ensures Unescape(Encode(s, long)) == s
    decreases |s|
  {
    if s != [] {
      UnescapeEntity(s[0], Encode(s[1..], long), long);
      UnescapeEncode(s[1..], long);
    }
  }

  /**
   * `escapeHtml` of dashboard.js and the blood-request board: a falsy input
   * gives `""`; otherwise the result is safe HTML text that decodes back
   * to the input.
   */
  function EscapeShort(text: Field<string>): (r: string)
    ensures !Truthy(text) ==> r == ""
    ensures SafeText(r, false)
    ensures Unescape(r) == (if Truthy(text) then text.value else "")
  {
    if !Truthy(text) then ""
    else
      ShortChainIsEncode(text.value);
      EncodeSafe(text.value, false);
      UnescapeEncode(text.value, false);
      ShortChain(text.value)
  }

  /**
   * `escapeHtml` of the donor directory: as the short helper, and the
   * output also holds no raw quote or apostrophe.
   */
  function EscapeLong(text: Field<string>): (r: string)
    ensures !Truthy(text) ==> r == ""
    ensures SafeText(r, true)
    ensures Unescape(r) == (if Truthy(text) then text.value else "")
  {
    if !Truthy(text) then ""
    else
      LongChainIsEncode(text.value);
      EncodeSafe(text.value, true);
      UnescapeEncode(text.value, true);
      LongChain(text.value)
  }
}

=== FILE: profiles.dfy ===
/**
 * The shared data model: the `users` profile document, the access-request
 * entries embedded in it, the `donors` document, the pages a session can be
 * sent to, and the store's partial-update primitive.
 */
module Profiles {
  import opened Wrappers
  import opened Values

  /** The status of an access request entry. */
  datatype Status = Pending | Approved | Ignored

  /** One entry of a donor's `accessRequests` list. */
  datatype AccessRequest = AccessRequest(requesterId: string, requesterName: string, status: Status)

  /**
   * A `users/{uid}` document.  Every key may be missing, and the documents
   * written by the different signup pages hold different subsets of keys.
   */
  datatype Profile = Profile(
    name: Field<string>,
    phone: Field<string>,
    email: Field<string>,
    role: Field<string>,
    bloodGroup: Field<string>,
    location: Field<string>,
    city: Field<string>,
    profileColor: Field<string>,
    profileLocked: Field<bool>,
    isActive: Field<bool>,
    createdAt: Field<TsValue>,
    lastDonationDate: Field<TsValue>,
    donationCooldownEnd: Field<TsValue>,
    accessRequests: Field<seq<AccessRequest>>)

  /** The document with no keys at all (`{}`). */
  const NoKeys := Profile(Absent, Absent, Absent, Absent, Absent, Absent, Absent, Absent,
                          Absent, Absent, Absent, Absent, Absent, Absent)

  /** A `donors/{uid}` document. */
  datatype DonorDoc = DonorDoc(
    name: Field<string>,
    phone: Field<string>,
    bloodGroup: string,
    isLocked: bool,
    available: bool,
    lastDonation: Field<TsValue>)

  /** The `users` collection. */
  type Users = map<string, Profile>

  /** The pages a session is sent to. */
  datatype Page = IndexPage | SignInPage | SignUpPage | DashboardPage | UserDashboard | DonorDashboard

  /** The role test `role === "donor"`. */
  predicate IsDonor(role: Field<string>) {
    role == Val("donor")
  }

  function AssignField<T>(base: Field<T>, over: Field<T>): Field<T> {
    if over.Absent? then base else over
  }

  /** The spread rule for one key: present in `over` wins, missing keeps `base`. */
  predicate SpreadKey<T(==)>(r: Field<T>, base: Field<T>, over: Field<T>) {
    && (!over.Absent? ==> r == over)
    && (over.Absent? ==> r == base)
  }

  /**
   * `Object.assign({}, base, over)` and `{...base, ...over}`: every key
   * present in `over` (even holding `null` or `""`) wins, every key missing
   * from it keeps its value in `base`.
   */
  function Assign(base: Profile, over: Profile): (r: Profile)
    ensures over == NoKeys ==> r == base
    ensures base == NoKeys ==> r == over
    ensures SpreadKey(r.name, base.name, over.name)
    ensures SpreadKey(r.phone, base.phone, over.phone)
    ensures SpreadKey(r.email, base.email, over.email)
    ensures SpreadKey(r.role, base.role, over.role)
    ensures SpreadKey(r.bloodGroup, base.bloodGroup, over.bloodGroup)
    ensures SpreadKey(r.location, base.location, over.location)
    ensures SpreadKey(r.city, base.city, over.city)
    ensures SpreadKey(r.profileColor, base.profileColor, over.profileColor)
    ensures SpreadKey(r.profileLocked, base.profileLocked, over.profileLocked)
    ensures SpreadKey(r.isActive, base.isActive, over.isActive)
    ensures SpreadKey(r.createdAt, base.createdAt, over.createdAt)
    ensures SpreadKey(r.lastDonationDate, base.lastDonationDate, over.lastDonationDate)
    ensures SpreadKey(r.donationCooldownEnd, base.donationCooldownEnd, over.donationCooldownEnd)
    ensures SpreadKey(r.accessRequests, base.accessRequests, over.accessRequests)
  {
    Profile(
      AssignField(base.name, over.name),
      AssignField(base.phone, over.phone),
      AssignField(base.email, over.email),
      AssignField(base.role, over.role),
      AssignField(base.bloodGroup, over.bloodGroup),
      AssignField(base.location, over.location),
      AssignField(base.city, over.city),
      AssignField(base.profileColor, over.profileColor),
      AssignField(base.profileLocked, over.profileLocked),
      AssignField(base.isActive, over.isActive),
      AssignField(base.createdAt, over.createdAt),
      AssignField(base.lastDonationDate, over.lastDonationDate),
      AssignField(base.donationCooldownEnd, over.donationCooldownEnd),
      AssignField(base.accessRequests, over.accessRequests))
  }

  /**
   * The store's `update(id, patch)`: fails when the document does not
   * exist, otherwise merges the patch's keys into it.
   */
  function Update(users: Users, id: string, patch: Profile): (r: Option<Users>)
    ensures r.None? <==> id !in users
    ensures r.Some? ==> r.value.Keys == users.Keys
    ensures r.Some? ==> r.value[id] == Assign(users[id], patch)
    ensures r.Some? ==> forall k :: k in users && k != id ==> r.value[k] == users[k]
  {
    if id in users then Some(users[id := Assign(users[id], patch)]) else None
  }
}

=== FILE: route_guards.dfy ===
/** The donor-dashboard guard of js/route-guards.js, and how it agrees with the signup and login routes. */
module RouteGuards {
  import opened Wrappers
  import opened Values
  import opened Profiles
  import opened Accounts
  import AuthPage
  import AuthModule
  import SignupPage

  /**
   * `enforceDonorDashboard`: no user goes to signup.html; a failed profile
   * read is not caught, so nothing redirects and whoever is signed in
   * stays; a missing profile counts as role "user"; any role but "donor"
   * goes to dashboard.html; a donor stays (no redirect).
   */
  function EnforceDonorDashboard(user: Option<string>, readOk: bool, users: Users): (p: Option<Page>)
    ensures user.None? ==> p == Some(SignUpPage)
    ensures user.Some? ==> (p.None? <==> !readOk || (user.value in users && IsDonor(users[user.value].role)))
    ensures user.Some? && p.Some? ==> p.value == DashboardPage
  {
    if user.None? then Some(SignUpPage)
    else if !readOk then None
    else
      var role := if user.value in users then users[user.value].role else Val("user");
      if role != Val("donor") then Some(DashboardPage) else None
  }

  /** The guard lets a signed-in user stay exactly when the login page would have sent them to the donor dashboard. */
  lemma GuardAgreesWithSession(uid: string, users: Users)
    ensures EnforceDonorDashboard(Some(uid), true, users).None? <==>
            AuthPage.SessionRedirect(Some(uid), true, users) == Some(DonorDashboard)
  {
  }

  /** A donor who signed up through the module page lands on the donor dashboard and the guard lets them stay. */
  lemma DonorSignupPassesGuard(form: SignupForm, u: AuthUser, db: Db)
    requires !MissingBloodGroup("donor", form.bloodGroup)
    ensures var r := AuthModule.Signup(form, "donor", AuthOk(u), db);
      && r.Created? && r.destination == DonorDashboard
      && EnforceDonorDashboard(Some(u.uid), true, r.db.users).None?
  {
  }

  /** After an upgrade through the signup page's helper the guard lets the user stay on the donor dashboard. */
  lemma UpgradePassesGuard(u: AuthUser, bloodGroup: Field<string>, db: Db)
    requires Truthy(bloodGroup) && u.uid in db.users
    ensures var up := SignupPage.UpgradeToDonor(Some(u), bloodGroup, db, None);
      && up.result == Success(true)
      && EnforceDonorDashboard(Some(u.uid), true, up.db.users).None?
  {
  }

  /**
   * The module helper succeeds, and the guard lets the user stay, when the
   * donors document already exists or the name and phone it would hold are
   * defined.
   */
  lemma ModuleUpgradePassesGuard(u: AuthUser, bloodGroup: Field<string>, db: Db)
    requires Truthy(bloodGroup) && u.uid in db.users
    requires u.uid in db.donors
             || (!db.users[u.uid].phone.Absent? && (Truthy(u.displayName) || !db.users[u.uid].name.Absent?))
    ensures var up := AuthModule.UpgradeToDonor(Some(u), bloodGroup, db, None);
      && up.result == Success(())
      && EnforceDonorDashboard(Some(u.uid), true, up.db.users).None?
  {
  }

  /**
   * A user who signed up on the login page has no phone key, so without a
   * donors document the module helper's write is refused: nothing is
   * stored and the guard still sends the user to dashboard.html.
   */
  lemma AccountProfileCannotUpgrade(u: AuthUser, name: string, email: string, groupText: string,
                                    serverMs: int, bloodGroup: Field<string>, db: Db)
    requires Truthy(bloodGroup) && u.uid !in db.donors
    ensures var users := db.users[u.uid := AuthPage.AccountDoc(name, email, "user", groupText, serverMs)];
      var up := AuthModule.UpgradeToDonor(Some(u), bloodGroup, Db(users, db.donors), None);
      && up == AuthModule.Upgraded(Db(users, db.donors), Failure(AuthModule.UndefinedValue))
      && EnforceDonorDashboard(Some(u.uid), true, up.db.users) == Some(DashboardPage)
  {
  }

  /**
   * The guard fails open: when its profile read fails, any signed-in user,
   * donor or not, stays on the donor dashboard, although the login page's
   * session listener would not send them there.
   */
  lemma FailedReadKeepsAnyone(uid: string, users: Users)
    ensures EnforceDonorDashboard(Some(uid), false, users).None?
    ensures AuthPage.SessionRedirect(Some(uid), false, users).None?
    ensures !(uid in users && IsDonor(users[uid].role)) ==> EnforceDonorDashboard(Some(uid), true, users) == Some(DashboardPage)
  {
  }

  /**
   * When the role update of the signup page's helper fails, the donor
   * document it just created stays behind while the profile keeps its
   * role, so a user who was not a donor is still sent to dashboard.html.
   */
  lemma FailedRoleUpdateLeavesDonorDoc(u: AuthUser, bloodGroup: Field<string>, db: Db, message: string)
    requires Truthy(bloodGroup) && u.uid in db.users && !IsDonor(db.users[u.uid].role)
    ensures var up := SignupPage.UpgradeToDonor(Some(u), bloodGroup, db, Some(StoreFault(SetRole, message)));
      && up.result == Failure(message)
      && u.uid in up.db.donors
      && up.db.users == db.users
      && EnforceDonorDashboard(Some(u.uid), true, up.db.users) == Some(DashboardPage)
  {
  }
}

=== FILE: signup_page.dfy ===
/** The signup page of js/signup.js: role switch, validation, profile document and donor upgrade. */
module SignupPage {
  import opened Wrappers
  import opened Values
  import opened Text
  import opened Profiles
  import opened Accounts

  /** The "User" and "Donor" buttons: choosing donor makes the blood group required. */
  function ChooseRole(donorButton: bool): (f: RoleForm)
    ensures f.selectedRole == (if donorButton then "donor" else "user")
    ensures f.bloodGroupRequired <==> f.selectedRole == "donor"
  {
    if donorButton then RoleForm("donor", true) else RoleForm("user", false)
  }

  /**
   * The `users/{uid}` document of this page: name, phone, role, an
   * unlocked profile and the creation time, plus the blood group exactly
   * for a donor; no other key.
   */
  function UsersDoc(name: string, phone: string, role: string, bloodGroup: string, serverMs: int): (p: Profile)
    ensures p.name == Val(name) && p.phone == Val(phone) && p.role == Val(role)
    ensures p.profileLocked == Val(false) && p.createdAt == Val(Timestamp(serverMs))
    ensures p.bloodGroup.Val? <==> role == "donor"
    ensures p.bloodGroup.Val? ==> p.bloodGroup.value == bloodGroup
    ensures p.(name := Absent, phone := Absent, role := Absent, profileLocked := Absent,
               createdAt := Absent, bloodGroup := Absent) == NoKeys
  {
    var base := NoKeys.(name := Val(name), phone := Val(phone), role := Val(role),
                        profileLocked := Val(false), createdAt := Val(Timestamp(serverMs)));
    if role == "donor" then base.(bloodGroup := Val(bloodGroup)) else base
  }

  /** The result of submitting the form. */
  datatype SignupOutcome = Rejected(message: string) | Failed(message: string) | Created(users: Users, destination: Page)

  /**
   * Submitting the form: a donor without a (trimmed) blood group is
   * rejected before the account is created, whatever the identity
   * provider would have answered; a provider error is shown; otherwise
   * the profile document is written and the page goes to the dashboard.
   */
  function Signup(form: SignupForm, role: string, auth: AuthResult, serverMs: int, users: Users): (r: SignupOutcome)
    ensures MissingBloodGroup(role, form.bloodGroup) ==> r == Rejected(BloodGroupRequired)
    ensures r.Rejected? ==> MissingBloodGroup(role, form.bloodGroup)
    ensures auth.AuthError? && !r.Rejected? ==> r == Failed(ErrorText(auth.message, "Signup failed"))
    ensures r.Created? <==> auth.AuthOk? && !MissingBloodGroup(role, form.bloodGroup)
    ensures r.Created? ==>
      && r.destination == DashboardPage
      && r.users == users[auth.user.uid := UsersDoc(Trim(form.name), Trim(form.phone), role,
                                                    Trim(form.bloodGroup), serverMs)]
  {
    if MissingBloodGroup(role, form.bloodGroup) then Rejected(BloodGroupRequired)
    else match auth
      case AuthError(m) => Failed(ErrorText(m, "Signup failed"))
      case AuthOk(u) =>
        Created(users[u.uid := UsersDoc(Trim(form.name), Trim(form.phone), role, Trim(form.bloodGroup), serverMs)],
                DashboardPage)
  }

  /** The result of `upgradeToDonor`: the collections afterwards and the returned value or thrown message. */
  datatype Upgraded = Upgraded(db: Db, result: Result<bool>)

  /**
   * `upgradeToDonor(bloodGroup)`: throws without a user or with a falsy
   * blood group before touching the store; a failing read, or a failing
   * creation of the missing donor document, throws with nothing written;
   * the donor document (name from the account, else the profile, else "";
   * phone from the profile, else "") is created only if none exists; then
   * the role is set to donor, which throws, leaving the donor document in
   * place, when that write fails or the user has no profile document.
   */
  function UpgradeToDonor(user: Option<AuthUser>, bloodGroup: Field<string>, db: Db,
                          fault: Option<StoreFault>): (u: Upgraded)
    ensures user.None? ==> u == Upgraded(db, Failure("Not authenticated"))
    ensures user.Some? && !Truthy(bloodGroup) ==> u == Upgraded(db, Failure("Blood group required"))
    ensures user.Some? && Truthy(bloodGroup) && ThrowsBeforeWrite(fault, user.value.uid in db.donors) ==>
      u == Upgraded(db, Failure(fault.value.message))
    ensures user.Some? && Truthy(bloodGroup) && !ThrowsBeforeWrite(fault, user.value.uid in db.donors) ==>
      var uid := user.value.uid;
      var data := if uid in db.users then db.users[uid] else NoKeys;
      && u.db.donors.Keys == db.donors.Keys + {uid}
      && (uid in db.donors ==> u.db.donors == db.donors)
      && (uid !in db.donors ==>
            u.db.donors == db.donors[uid := NewDonorDoc(
              Val(OrElse(user.value.displayName, OrElse(data.name, ""))),
              Val(OrElse(data.phone, "")), bloodGroup.value)])
      && (u.result.Success? <==> uid in db.users && !FailsAt(fault, SetRole))
      && (FailsAt(fault, SetRole) ==> u.result == Failure(fault.value.message))
      && (u.result.Success? ==> u.result.value && u.db.users == db.users[uid := data.(role := Val("donor"))])
      && (u.result.Failure? ==> u.db.users == db.users)
  {
    if user.None? then Upgraded(db, Failure("Not authenticated"))
    else if !Truthy(bloodGroup) then Upgraded(db, Failure("Blood group required"))
    else
      var uid := user.value.uid;
      if ThrowsBeforeWrite(fault, uid in db.donors) then Upgraded(db, Failure(fault.value.message))
      else
        var data := if uid in db.users then db.users[uid] else NoKeys;
        var name := OrElse(user.value.displayName, OrElse(data.name, ""));
        var phone := OrElse(data.phone, "");
        var donors := if uid in db.donors then db.donors
                      else db.donors[uid := NewDonorDoc(Val(name), Val(phone), bloodGroup.value)];
        var written := Update(db.users, uid, NoKeys.(role := Val("donor")));
        if FailsAt(fault, SetRole) then Upgraded(Db(db.users, donors), Failure(fault.value.message))
        else if written.None? then Upgraded(Db(db.users, donors), Failure("No document to update"))
        else Upgraded(Db(written.value, donors), Success(true))
  }

}

=== FILE: text.dfy ===
/**
 * The JavaScript string primitives the pages use: `trim`, `toLowerCase`,
 * `includes`, and `replace` with a global single-character pattern.
 */
module Text {

  /** ECMAScript white space and line terminators, the characters `trim` removes. */
  predicate IsSpace(c: char) {
    || c == '\t' || c == '\n' || c == '\U{000B}' || c == '\U{000C}' || c == '\r'
    || c == ' ' || c == '\U{00A0}' || c == '\U{1680}'
    || ('\U{2000}' <= c <= '\U{200A}')
    || c == '\U{2028}' || c == '\U{2029}' || c == '\U{202F}' || c == '\U{205F}'
    || c == '\U{3000}' || c == '\U{FEFF}'
  }

  predicate AllSpace(s: string) {
    forall k :: 0 <= k < |s| ==> IsSpace(s[k])
  }

  /** `t` occurs in `s` starting at index `i`. */
  predicate OccursAt(s: string, t: string, i: int) {
    0 <= i && i + |t| <= |s| && s[i..i + |t|] == t
  }

  /** The index of the first non-space character at or after `i`, or `|s|`. */
  function SkipSpace(s: string, i: nat): (n: nat)
    requires i <= |s| && AllSpace(s[..i])
    ensures i <= n <= |s| && AllSpace(s[..n])
    ensures n == |s| || !IsSpace(s[n])
    decreases |s| - i
  {
    if i == |s| || !IsSpace(s[i]) then i
    else
      assert s[..i + 1] == s[..i] + [s[i]];
      SkipSpace(s, i + 1)
  }

  /** The index just after the last non-space character before `j`, or 0. */
  function SkipSpaceBack(s: string, j: nat): (m: nat)
    requires j <= |s| && AllSpace(s[j..])
    ensures m <= j && AllSpace(s[m..])
    ensures m == 0 || !IsSpace(s[m - 1])
    decreases j
  {
    if j == 0 || !IsSpace(s[j - 1]) then j
    else
      assert s[j - 1..] == [s[j - 1]] + s[j..];
      SkipSpaceBack(s, j - 1)
  }

  /** `s.trim()`: the infix of `s` left after removing white space at both ends. */
  function Trim(s: string): (r: string)
    ensures r == [] <==> AllSpace(s)
    ensures r == [] || (!IsSpace(r[0]) && !IsSpace(r[|r| - 1]))
    ensures exists i :: OccursAt(s, r, i) && AllSpace(s[..i]) && AllSpace(s[i + |r|..])
  {
    assert s[..0] == [] && s[|s|..] == [];
    var n := SkipSpace(s, 0);
    var m := SkipSpaceBack(s, |s|);
    if n < m then
      assert OccursAt(s, s[n..m], n);
      s[n..m]
    else
      assert forall k :: m <= k < |s| ==> s[k] == s[m..][k - m];
      assert s[..n] == s;
      assert OccursAt(s, [], 0) && s[0..] == s;
      []
  }

  /** `c.toLowerCase()` on the ASCII upper-case letters; every other character is kept. */
  function LowerChar(c: char): char {
    if 'A' <= c <= 'Z' then (c as int + 32) as char else c
  }

  /** `s.toLowerCase()`, character by character. */
  function Lower(s: string): (r: string)
    ensures |r| == |s|
  {
    seq(|s|, i requires 0 <= i < |s| => LowerChar(s[i]))
  }

  lemma SliceShift(s: string, t: string, i: int)
    requires s != [] && 0 <= i
    ensures OccursAt(s[1..], t, i) <==> OccursAt(s, t, i + 1)
  {
    if 0 <= i && i + |t| <= |s| - 1 {
      assert s[1..][i..i + |t|] == s[i + 1..i + 1 + |t|];
    }
  }

  /** `s.includes(t)`: `t` occurs somewhere in `s`. */
  function Contains(s: string, t: string): (r: bool)
    ensures r <==> exists i :: OccursAt(s, t, i)
    decreases |s|
  {
    if t <= s then
      assert OccursAt(s, t, 0);
      true
    else if s == [] then
      false
    else
      assert !OccursAt(s, t, 0) by {
        if |t| <= |s| {
          assert t <= s <==> s[0..|t|] == t;
        }
      }
      assert forall i | 0 <= i :: OccursAt(s[1..], t, i) <==> OccursAt(s, t, i + 1) by {
        forall i | 0 <= i ensures OccursAt(s[1..], t, i) <==> OccursAt(s, t, i + 1) {
          SliceShift(s, t, i);
        }
      }
      assert forall i :: OccursAt(s, t, i) ==> i >= 1 && OccursAt(s[1..], t, i - 1) by {
        forall i | OccursAt(s, t, i) ensures i >= 1 && OccursAt(s[1..], t, i - 1) {
          SliceShift(s, t, i - 1);
        }
      }
      Contains(s[1..], t)
  }

  /** The empty string is contained in every string, so an empty search term matches everything. */
  lemma ContainsEmpty(s: string)
    ensures Contains(s, "")
  {
    assert OccursAt(s, "", 0);
  }

  /** `s.replace(/c/g, rep)`: every occurrence of `c` replaced by `rep`. */
  function ReplaceAll(s: string, c: char, rep: string): (r: string)
    ensures c !in rep ==> c !in r
    ensures forall d :: d != c && d !in rep && d !in s ==> d !in r
    decreases |s|
  {
    if s == [] then [] else (if s[0] == c then rep else [s[0]]) + ReplaceAll(s[1..], c, rep)
  }

  /** Replacing in a concatenation is replacing in each part. */
  lemma {:induction false} ReplaceAllConcat(a: string, b: string, c: char, rep: string)
    ensures ReplaceAll(a + b, c, rep) == ReplaceAll(a, c, rep) + ReplaceAll(b, c, rep)
    decreases |a|
  {
    if a != [] {
      assert (a + b)[1..] == a[1..] + b;
      ReplaceAllConcat(a[1..], b, c, rep);
    } else {
      assert a + b == b;
    }
  }

  /** Replacing a character that does not occur changes nothing. */
  lemma {:induction false} ReplaceAbsent(s: string, c: char, rep: string)
    requires c !in s
    ensures ReplaceAll(s, c, rep) == s
    decreases |s|
  {
    if s != [] {
      ReplaceAbsent(s[1..], c, rep);
      assert s == [s[0]] + s[1..];
    }
  }

  lemma ReplaceSingle(d: char, c: char, rep: string)
    ensures ReplaceAll([d], c, rep) == if d == c then rep else [d]
  {
    assert [d][1..] == [];
  }
}

=== FILE: values.dfy ===
/**
 * How a stored document's fields look to the browser code: a key may be
 * missing, may hold `null`, or may hold a value.  JavaScript truthiness
 * and the timestamp decoding shared by the pages are defined here once.
 */
module Values {
  import opened Wrappers

  /** A document field: key missing, explicit `null`, or a value. */
  datatype Field<+T> = Absent | Null | Val(value: T)

  /** JavaScript truthiness of a string-valued field (`""`, `null` and a missing key are falsy). */
  predicate Truthy(f: Field<string>) {
    f.Val? && f.value != ""
  }

  /** The string `f || d`: the field's value when truthy, the default otherwise. */
  function OrElse(f: Field<string>, d: string): (r: string)
    ensures Truthy(f) ==> r == f.value
    ensures !Truthy(f) ==> r == d
  {
    if Truthy(f) then f.value else d
  }

  /** A sequence-valued field read as `x || []`. */
  function ListOf<T>(f: Field<seq<T>>): seq<T> {
    if f.Val? then f.value else []
  }

  /**
   * The shapes a timestamp field can take: a store timestamp (which has a
   * `toMillis` method), a plain object with a numeric `seconds` member, a
   * bare number of milliseconds, or anything else.
   */
  datatype TsValue = Timestamp(millis: int) | SecondsObject(seconds: int) | Number(n: int) | Other

  /** Milliseconds of a timestamp field, or `None` for the source's `null`. */
  function TsMillis(f: Field<TsValue>): (r: Option<int>)
    ensures r.None? <==> (f.Absent? || f.Null? || f == Val(Number(0)) || f == Val(Other))
    ensures f.Val? && f.value.Timestamp? ==> r == Some(f.value.millis)
    ensures f.Val? && f.value.SecondsObject? ==> r == Some(f.value.seconds * 1000)
    ensures f.Val? && f.value.Number? && f.value.n != 0 ==> r == Some(f.value.n)
  {
    match f
    case Absent => None
    case Null => None
    case Val(ts) =>
      match ts
      case Timestamp(ms) => Some(ms)
      case SecondsObject(s) => Some(s * 1000)
      case Number(n) => if n == 0 then None else Some(n)
      case Other => None
  }

  /** JavaScript truthiness of a millisecond value that may be `null`: `null` and `0` are falsy. */
  predicate MillisTruthy(m: Option<int>) {
    m.Some? && m.value != 0
  }

  /** `a || b` on a millisecond value that may be `null`. */
  function MillisOr(m: Option<int>, d: int): (r: int)
    ensures MillisTruthy(m) ==> r == m.value
    ensures !MillisTruthy(m) ==> r == d
  {
    if MillisTruthy(m) then m.value else d
  }
}

=== FILE: wrappers.dfy ===
/** Failure-compatible result types shared by every module of the model. */
module Wrappers {

  /** An optional value; the model's stand-in for JavaScript's `null` result. */
  datatype Option<+T> = None | Some(value: T) {
    function GetOr(default: T): T {
      match this
      case Some(v) => v
      case None => default
    }
  }

  /** The outcome of an operation that can throw: a value, or the error message. */
  datatype Result<+T> = Success(value: T) | Failure(error: string)
}
